=== FILE: README.md ===
# JXPopupView, modelled in Dafny

JXPopupView is a small UIKit component. A popup view covers a container view
with a full-bleed background view and places the caller's content view on top
of it. An animator prepares the content (`setup`) and then runs a display or
dismiss animation. The repository holds three snapshots of this component:

- `Sources/PopupView.swift` (newest): `PopupView`, its nested `BackgroundView`,
  and `BaseAnimator` with a `Layout`. The layout places the content with a
  fixed frame or with Auto Layout constraints.
- `Sources/JXPopupView.swift`: `JXPopupView`, `JXBackgroundView`, and
  frame-based animators that store two closures, `displayAnimateBlock` and
  `dismissAnimateBlock`.
- `JXPopupView/Source/JXPopupView.swift`: an earlier copy of the previous
  file. The demo app's `JXPopupViewCustomAnimator` subclasses its base animator.

The model has these modules:

- `Presentation`: the controller's presentation state machine as values.
  - One `isAnimating` guard covers both `display` and `dismiss`.
  - `display` attaches the popup, fires the will-display callback and hands
    the animator a completion.
  - That completion runs the caller's completion, clears the guard and fires
    the did-display callback. On dismiss, the popup is detached first.
  - Every fired callback is recorded in a trace, together with the guard's
    value at that instant.
  - A protocol automaton over the trace shows that transitions never overlap,
    whatever the callers and the animation engine do (`RunKeepsProtocol`).
  - The caller's completion may call `display` or `dismiss` again. That call
    is dropped because the guard is still set (`ReentryDropped`).
  - The popup's hit-test decision table.
- `Backdrop`: the background view.
  - Its style, blur style, colour, effect view and hit redirect.
  - Effect views are numbered, so a blur view left behind can be seen.
- `FrameAnimation`: the frame-based animators the two older snapshots share.
  - Each stored block is modelled as the record of the assignments it makes.
  - `setup` captures the content frame it reads at that moment.
- `CustomAnimator`: `JXPopupViewCustomAnimator`.
- `JXPopup` and `JXPopupLegacy`: the two older snapshots.
  - Each has an `Animator` class and a controller class, `JXPopupView`.
  - The legacy animator can also be the custom one.
- `PopupKit`: the newest snapshot.
  - It has `Layout`, the popup's constraints on the content, and the
    animators, whose blocks read the animator's current layout when they run.
  - The controller class is `PopupView`.

`UIView.animate` applies its animation block at once and calls its completion
later. Each controller keeps that completion in `pending`, and
`FinishAnimation` is the animation engine calling it. Without animation, the
animator calls the completion before it returns.

Every controller method states two things:

- its new presentation state is the matching `Presentation` function of the
  old one;
- its new view state is the stored block applied to the old view state, or
  unchanged while a transition is in flight.

In the three snapshots, the slide animators differ in direction:

- In the two older snapshots, the leftward slide enters from the container's
  right edge.
- In `Sources/PopupView.swift`, it enters from the left edge.
- The model follows each file (`FrameAnimation.SlideSource`,
  `PopupKit.EntryEdge`).

In the newest snapshot, the upward and downward slides do not move content
placed with the top or bottom layout. Those layouts create no centre-Y
constraint, so only the background fades in and out
(`PopupKit.VerticalSlideStaysPutOnEdgeLayouts`).

## Model

| member | source | states |
|---|---|---|
| `Presentation.Display` | Sources/JXPopupView.swift:149-162 | The state change of `display`. Its properties are stated by `Presentation.DisplayOrder` and `Presentation.DisplayKeepsProtocol`. |
| `Presentation.Dismiss` | Sources/JXPopupView.swift:164-176 | The state change of `dismiss`. Its properties are stated by `Presentation.DismissOrder` and `Presentation.DismissKeepsProtocol`. |
| `Presentation.CompleteDisplay` | Sources/JXPopupView.swift:157-161 | The display completion. Its properties are stated by `Presentation.CompleteDisplayOrder`. |
| `Presentation.CompleteDismiss` | Sources/JXPopupView.swift:170-175 | The dismiss completion. Its properties are stated by `Presentation.CompleteDismissOrder`. |
| `Presentation.RunUserCompletion` | Sources/JXPopupView.swift:157-161 | The caller's completion, with the call it may make back in. Its properties are stated by `Presentation.ReentryDropped`. |
| `Presentation.Finish` | Sources/JXPopupView.swift:268-292 | The animation engine calling the completion it holds. Its properties are stated by `Presentation.FinishKeepsProtocol`. |
| `Presentation.Step` | Sources/JXPopupView.swift:149-180 | One call from outside: display, dismiss, a background tap or an animation end. Its properties are stated by `Presentation.StepKeepsProtocol`. |
| `Presentation.Run` | Sources/JXPopupView.swift:149-180 | A sequence of such calls. Its properties are stated by `Presentation.RunKeepsProtocol` and `Presentation.ProtocolFromInitial`. |
| `Presentation.ReentryDropped` | Sources/JXPopupView.swift:149-176 | The caller's completion runs while the guard is still set, so a `display` or `dismiss` it issues changes nothing. Its only trace is the completion itself. |
| `Presentation.DroppedWhileAnimating` | Sources/JXPopupView.swift:149-168 | While a transition is in flight, `display` and `dismiss` return without any effect. |
| `Presentation.CompleteDisplayOrder` | Sources/JXPopupView.swift:157-161 | The display completion runs the caller's completion, clears the guard, then fires did-display. Attachment and pending state are kept. |
| `Presentation.CompleteDismissOrder` | Sources/JXPopupView.swift:170-175 | The dismiss completion detaches the popup, runs the caller's completion, clears the guard, then fires did-dismiss. |
| `Presentation.DisplayOrder` | Sources/JXPopupView.swift:149-162 | On an idle popup, `display` sets the guard, attaches, fires will-display, and leaves the completion pending. Without animation the whole display cycle has run by the time it returns. |
| `Presentation.DismissOrder` | Sources/JXPopupView.swift:164-176 | On an idle popup, `dismiss` sets the guard, fires will-dismiss, and leaves the completion pending. Without animation the popup is detached and the cycle has finished on return. |
| `Presentation.ShowThenHideSynchronously` | Sources/JXPopupView.swift:149-176 | A non-animated display followed by a non-animated dismiss leaves the popup idle and detached. Both cycles' events are in call order. |
| `Presentation.DisplayKeepsProtocol` | Sources/JXPopupView.swift:149-162 | `display` keeps a protocol-consistent state consistent. |
| `Presentation.DismissKeepsProtocol` | Sources/JXPopupView.swift:164-176 | `dismiss` keeps a protocol-consistent state consistent. |
| `Presentation.FinishKeepsProtocol` | Sources/JXPopupView.swift:268-292 | The animation engine calling the held completion keeps the state consistent and closes the open cycle. |
| `Presentation.StepKeepsProtocol` | Sources/JXPopupView.swift:149-180 | Display, dismiss, a background tap and an animation end each keep the state consistent. |
| `Presentation.RunKeepsProtocol` | Sources/JXPopupView.swift:149-180 | After any sequence of calls and animation ends, the following hold. The trace is a series of complete will/did cycles, then at most one open cycle matching the pending completion. The guard is set exactly while a completion is pending, and a popup being displayed is attached. |
| `Presentation.InitialConsistent` | Sources/JXPopupView.swift:105-119 | A new controller (guard clear, detached, nothing pending, empty trace) is protocol-consistent and idle. |
| `Presentation.ProtocolFromInitial` | Sources/JXPopupView.swift:105-180 | From creation on, every sequence of calls and animation ends leaves the controller protocol-consistent, and its trace never breaks the protocol. |
| `Presentation.HitTest` | Sources/JXPopupView.swift:125-141 | The popup rejects a touch exactly in two cases: the touch is in the content and the popup is not interactive, or it is outside the content and the popup is penetrable. Otherwise the default hit-test runs. |
| `Backdrop.Detach` | Sources/PopupView.swift:212-215 | Removing the effect view takes exactly that view out of the subviews. Removing nil changes nothing. |
| `Backdrop.RefreshedAsWritten` | Sources/PopupView.swift:212-221 | The refresh as the code does it. Its properties are stated by `Backdrop.RefreshAsWrittenKeepsLinked` and `Backdrop.StackedEffectViewsAsWritten`. |
| `Backdrop.RefreshAsWrittenKeepsLinked` | Sources/PopupView.swift:212-221 | A refresh as written keeps three things true: the effect view is nil exactly in solid style, it is attached, and its identifier is fresh. In blur style it attaches one new view and keeps every view already attached. In solid style it removes only the current effect view. |
| `Backdrop.RefreshKeepsTidy` | Sources/PopupView.swift:212-221 | With the correction, a refresh under any style keeps two things true. The effect view is nil exactly in solid style. The only attached blur view is the current one. |
| `Backdrop.StackedEffectViewsAsWritten` | Sources/PopupView.swift:212-221 | As written: refresh twice in blur style, then switch to solid. The first blur view is still attached, and a hit on it is not redirected. |
| `Backdrop.StackedEffectViewsCorrected` | Sources/PopupView.swift:212-221 | The same refreshes with the correction leave no blur view. |
| `Backdrop.RedirectAsWritten` | Sources/PopupView.swift:203-210 | The redirect as written. A hit on the current effect view becomes the background, and so does a miss when there is no effect view. A miss with an effect view stays a miss, and every other hit is kept. |
| `Backdrop.MissRedirectedAsWritten` | Sources/PopupView.swift:203-210 | As written, a miss on a solid-colour background returns the background view. |
| `Backdrop.Redirect` | Sources/PopupView.swift:203-210 | A hit on the current effect view becomes a hit on the background. A miss stays a miss, and every other hit is kept. |
| `Backdrop.RedirectAgreesOnHits` | Sources/PopupView.swift:203-210 | The code as written and the corrected redirect differ only on a miss when there is no effect view. |
| `Backdrop.BackgroundView.constructor` | Sources/PopupView.swift:191-197 | A new background is solid, with a dark blur style, black at 30% alpha, and no effect view. |
| `Backdrop.BackgroundView.RefreshBackgroundStyle` | Sources/PopupView.swift:212-221 | The effect bookkeeping becomes the refresh as written of the old one. Nothing else changes. |
| `Backdrop.BackgroundView.SetStyle` | Sources/PopupView.swift:172-177 | After setting the style, the effect view exists exactly in blur style and is attached. The bookkeeping is the refresh as written, so earlier blur views stay attached. The colour is untouched. |
| `Backdrop.BackgroundView.SetBlurEffectStyle` | Sources/PopupView.swift:178-182 | In blur style, setting the blur style attaches a new effect view and leaves the old one attached. In solid style nothing changes. The style and colour are kept. |
| `Backdrop.BackgroundView.SetColor` | Sources/PopupView.swift:184-188 | The background colour follows `color` whatever the style. |
| `Backdrop.BackgroundView.HitTest` | Sources/PopupView.swift:203-210 | A hit on the effect view counts as a hit on the background. On a solid background a miss also returns the background; in blur style a miss stays a miss. Every other hit is kept, and on hits the result agrees with the corrected redirect. |
| `FrameAnimation.RunBlock` | Sources/JXPopupView.swift:268-292 | Running a stored block makes exactly its assignments. A nil block does nothing. |
| `FrameAnimation.Apply` | Sources/JXPopupView.swift:268-292 | `block?()` on the view state: each assignment the block makes, and nothing for a nil block. The method is `FrameAnimation.RunBlock`. Its properties are stated by `FrameAnimation.DisplayAfterSetup` and `FrameAnimation.DismissAfterDisplay`. |
| `FrameAnimation.SlideSource` | Sources/JXPopupView.swift:295-373 | The source rectangle of each slide. Its geometry is stated by `FrameAnimation.SlideSourceGeometry`. |
| `FrameAnimation.PlanFor` | Sources/JXPopupView.swift:295-407 | The setup, display and dismiss blocks of each built-in animator. Their properties are stated by `FrameAnimation.DismissIsSetup`, `FrameAnimation.DisplayAfterSetup` and `FrameAnimation.DismissAfterDisplay`. |
| `FrameAnimation.SlideSourceGeometry` | Sources/JXPopupView.swift:295-373 | A slide's source rectangle keeps the content's size and moves one origin coordinate. That puts the content just beyond the container's right, left, bottom or top edge, for leftward, rightward, upward or downward respectively. |
| `FrameAnimation.DismissIsSetup` | Sources/JXPopupView.swift:295-407 | Each built-in dismiss block makes exactly the assignments of its setup. |
| `FrameAnimation.DisplayAfterSetup` | Sources/JXPopupView.swift:295-407 | Display after setup restores the original frame (slides) or brings alpha to 1 (fade) or brings alpha to 1 and the identity transform (zoom). The background ends opaque. |
| `FrameAnimation.DismissAfterDisplay` | Sources/JXPopupView.swift:295-407 | Dismiss after display returns every built-in animator to its setup state. |
| `CustomAnimator.CustomPlan` | JXPopupView/Example/JXPopupViewCustomAnimator.swift:14-37 | The custom animator's setup, display and dismiss blocks. Their geometry is stated by `CustomAnimator.CustomGeometry` and `CustomAnimator.CustomNotRoundTrip`. |
| `CustomAnimator.Setup` | JXPopupView/Example/JXPopupViewCustomAnimator.swift:14-37 | Setup moves the content to above-left of the container and hides the background. It returns blocks that move the content to its original frame and then to the container's bottom-right corner. |
| `CustomAnimator.CustomGeometry` | JXPopupView/Example/JXPopupViewCustomAnimator.swift:14-37 | The source ends at the container origin, display lands on the original frame, dismiss starts at the bottom-right corner. All three keep the content's size. |
| `CustomAnimator.CustomNotRoundTrip` | JXPopupView/Example/JXPopupViewCustomAnimator.swift:29-36 | Unlike the built-in slides, dismissing does not return the content to where setup put it. |
| `JXPopup.Animator.constructor` | Sources/JXPopupView.swift:262-263 | A new animator holds no blocks. |
| `JXPopup.Animator.Setup` | Sources/JXPopupView.swift:265-407 | Setup puts the views in the setup state of the animator's kind. It stores that kind's display and dismiss blocks; the base animator keeps its blocks. |
| `JXPopup.Animator.InstallSlide` | Sources/JXPopupView.swift:297-311 | A slide setup moves the content to the source and hides the background. It stores "to target, opaque" and "to source, transparent". |
| `JXPopup.Animator.Display` | Sources/JXPopupView.swift:268-279 | Runs the display block. The completion is due at once exactly when not animated. |
| `JXPopup.Animator.Dismiss` | Sources/JXPopupView.swift:281-292 | Runs the dismiss block. The completion is due at once exactly when not animated. |
| `JXPopup.JXPopupView.constructor` | Sources/JXPopupView.swift:105-119 | A new popup is idle and detached, with an empty trace. It is not dismissible, with the background's interaction off to match. It is interactive and not penetrable, and its animator's setup has run: a built-in animator holds its kind's blocks, and the base animator keeps the blocks it had. |
| `JXPopup.JXPopupView.SetDismissible` | Sources/JXPopupView.swift:73-77 | `isDismissible` is mirrored into the background's interaction flag. |
| `JXPopup.JXPopupView.HitTest` | Sources/JXPopupView.swift:125-141 | The controller's hit-test rejects a touch exactly as the decision table says. |
| `JXPopup.JXPopupView.Display` | Sources/JXPopupView.swift:149-162 | The state changes as `Presentation.Display` says. The views change by the display block, or not at all while animating. The settings are kept. |
| `JXPopup.JXPopupView.Dismiss` | Sources/JXPopupView.swift:164-176 | The state changes as `Presentation.Dismiss` says. The views change by the dismiss block, or not at all while animating. |
| `JXPopup.JXPopupView.CompleteDisplay` | Sources/JXPopupView.swift:157-161 | The display completion changes the state as `Presentation.CompleteDisplay` says and leaves the views alone. |
| `JXPopup.JXPopupView.CompleteDismiss` | Sources/JXPopupView.swift:170-175 | The dismiss completion changes the state as `Presentation.CompleteDismiss` says and leaves the views alone. |
| `JXPopup.JXPopupView.RunUserCompletion` | Sources/JXPopupView.swift:157-161 | The caller's completion runs with the guard set. A call it makes back in is dropped, so the guard and the pending completion are unchanged. |
| `JXPopup.JXPopupView.FinishAnimation` | Sources/JXPopupView.swift:268-292 | The animation engine calls the held completion once, as `Presentation.Finish` says. |
| `JXPopup.JXPopupView.BackgroundViewClicked` | Sources/JXPopupView.swift:178-180 | A tap on the background is an animated dismiss with no completion. |
| `JXPopupLegacy.LegacyPlan` | JXPopupView/Source/JXPopupView.swift:251-364 | The blocks of each legacy animator, the custom one included. Their properties are stated by `JXPopupLegacy.DisplayRestoresFrame`. |
| `JXPopupLegacy.DisplayRestoresFrame` | JXPopupView/Source/JXPopupView.swift:251-364 | Every animator but the base one stores both blocks. Display after setup restores the frame and makes the background opaque, for the custom animator too. The built-in ones then dismiss back to the setup state. |
| `JXPopupLegacy.Animator.constructor` | JXPopupView/Source/JXPopupView.swift:212-220 | A new animator holds no blocks. |
| `JXPopupLegacy.Animator.Setup` | JXPopupView/Source/JXPopupView.swift:221-364 | Setup puts the views in the setup state of the animator's kind, the custom one included, and stores that kind's blocks. |
| `JXPopupLegacy.Animator.InstallSlide` | JXPopupView/Source/JXPopupView.swift:253-267 | A slide setup moves the content to the source and hides the background. It stores "to target, opaque" and "to source, transparent". |
| `JXPopupLegacy.Animator.Display` | JXPopupView/Source/JXPopupView.swift:224-235 | Runs the display block. The completion is due at once exactly when not animated. |
| `JXPopupLegacy.Animator.Dismiss` | JXPopupView/Source/JXPopupView.swift:237-248 | Runs the dismiss block. The completion is due at once exactly when not animated. |
| `JXPopupLegacy.JXPopupView.constructor` | JXPopupView/Source/JXPopupView.swift:70-84 | A new popup is idle, detached and not dismissible, with background interaction off. Its animator's setup has run: every animator but the base one holds its kind's blocks, and the base animator keeps the blocks it had. |
| `JXPopupLegacy.JXPopupView.SetDismissible` | JXPopupView/Source/JXPopupView.swift:45-49 | `isDismissible` is mirrored into the background's interaction flag. |
| `JXPopupLegacy.JXPopupView.HitTest` | JXPopupView/Source/JXPopupView.swift:90-106 | The same decision table as the other snapshots. |
| `JXPopupLegacy.JXPopupView.Display` | JXPopupView/Source/JXPopupView.swift:114-127 | The state changes as `Presentation.Display` says, and the views change by the display block. |
| `JXPopupLegacy.JXPopupView.Dismiss` | JXPopupView/Source/JXPopupView.swift:129-141 | The state changes as `Presentation.Dismiss` says, and the views change by the dismiss block. |
| `JXPopupLegacy.JXPopupView.CompleteDisplay` | JXPopupView/Source/JXPopupView.swift:122-126 | The display completion, as `Presentation.CompleteDisplay` says. |
| `JXPopupLegacy.JXPopupView.CompleteDismiss` | JXPopupView/Source/JXPopupView.swift:135-140 | The dismiss completion, as `Presentation.CompleteDismiss` says. |
| `JXPopupLegacy.JXPopupView.RunUserCompletion` | JXPopupView/Source/JXPopupView.swift:122-126 | The caller's completion runs with the guard set, and a call back in is dropped. |
| `JXPopupLegacy.JXPopupView.FinishAnimation` | JXPopupView/Source/JXPopupView.swift:224-248 | The animation engine calls the held completion once. |
| `JXPopupLegacy.JXPopupView.BackgroundViewClicked` | JXPopupView/Source/JXPopupView.swift:143-145 | A tap on the background is an animated dismiss with no completion. |
| `PopupKit.Layout.HorizontalOffset` | Sources/PopupView.swift:253-264 | `horizontalOffset()`. It is tied to the base setup by `PopupKit.OffsetsMatchBaseSetup`. |
| `PopupKit.Layout.VerticalOffset` | Sources/PopupView.swift:266-277 | `verticalOffset()`. Under the centre layout, `PopupKit.OffsetsMatchBaseSetup` ties it to the centre-Y constant of the base setup. Under the top and bottom layouts, `PopupKit.BaseConstraintsPinTheirEdge` ties it to the pinned edge, with the correction only. |
| `PopupKit.BaseConstraintsAsWritten` | Sources/PopupView.swift:328-362 | The constraints the base setup activates, as written. The bottom layout's are stated by `PopupKit.BottomLayoutAsWritten`. |
| `PopupKit.FromFrameAsWritten` | Sources/PopupView.swift:394-524 | The start frame of each slide under the frame layout, as written. The downward one is stated by `PopupKit.DownwardFrameAsWritten`. |
| `PopupKit.ActionScene` | Sources/PopupView.swift:394-563 | The effect of one slide, fade or zoom closure under a layout, as written or corrected. It is run by `PopupKit.Animator.RunAction`. Its properties are stated by `PopupKit.SlideStartsOutside`, `PopupKit.DisplayLandsOnLayout` and `PopupKit.DismissAfterDisplay`. |
| `PopupKit.Perform` | Sources/PopupView.swift:367-391 | `block?()`: a stored closure, or nothing for a nil one. Its properties are stated by `PopupKit.DisplayLandsOnLayout` and `PopupKit.DismissAfterDisplay`. |
| `PopupKit.BaseSetupScene` | Sources/PopupView.swift:328-365 | `BaseAnimator.setup`: the layout's frame, or its constraints on a popup that has none. Its properties are stated by `PopupKit.BottomLayoutAsWritten`, `PopupKit.BaseConstraintsPinTheirEdge` and `PopupKit.VerticalSlideStaysPutOnEdgeLayouts`. |
| `PopupKit.SetupScene` | Sources/PopupView.swift:394-563 | The subclasses' `setup`: the base setup, then the dismiss closure. Its properties are stated by `PopupKit.DisplayLandsOnLayout`, `PopupKit.DismissAfterDisplay` and `PopupKit.ReadingsAgreeElsewhere`. |
| `PopupKit.ReadingsAgreeElsewhere` | Sources/PopupView.swift:328-563 | The code as written and the correction set up every animator alike, and run every closure alike, except for the bottom layout and the downward slide under the frame layout. |
| `PopupKit.BottomLayoutAsWritten` | Sources/PopupView.swift:350-359 | As written, the bottom layout pins the content's top edge `bottomMargin` below the popup's top, exactly like the top layout. |
| `PopupKit.BaseConstraintsPinTheirEdge` | Sources/PopupView.swift:328-362 | With the correction, each constraint layout pins its own edge or centre with its own numbers, plus the centre-X offset and the optional size. Only the bottom layout differs from the code as written. |
| `PopupKit.OffsetsMatchBaseSetup` | Sources/PopupView.swift:253-277 | `horizontalOffset()` and `verticalOffset()` are the constants the base setup gives the centre constraints it creates, as written and corrected. |
| `PopupKit.DisplayLandsOnLayout` | Sources/PopupView.swift:328-563 | For every animator and layout, display after setup places the content as the layout says: its frame, or exactly the base setup's constraints. This holds for the code as written (whose bottom-layout constraints are wrong) and for the correction. The background ends opaque. A faded or zoomed content ends visible at its own size. |
| `PopupKit.DismissAfterDisplay` | Sources/PopupView.swift:394-563 | With the layout unchanged, dismiss after display returns every animator to its setup state, as written and corrected. |
| `PopupKit.SlideStartsOutside` | Sources/PopupView.swift:394-524 | A slide's start state hides the background. Under the frame layout it puts the content just beyond the slide's entry edge, keeping its size. With the correction this holds for every slide; as written, for every slide but the downward one. Under a constraint layout it puts the content's centre just beyond the entry edge only where the centre constraint the slide moves exists. The vertical slides under the top and bottom layouts, which have no centre-Y constraint, are stated by `PopupKit.VerticalSlideStaysPutOnEdgeLayouts`. |
| `PopupKit.DownwardFrameAsWritten` | Sources/PopupView.swift:497-508 | As written, under the frame layout the downward slide starts below the popup, where the upward slide does. It does not start above, as it does under the constraint layouts. |
| `PopupKit.VerticalSlideStaysPutOnEdgeLayouts` | Sources/PopupView.swift:460-524 | Under the top and bottom layouts, the vertical slides do not move the content, as written and corrected. Setup only hides the background. |
| `PopupKit.Animator.constructor` | Sources/PopupView.swift:324-326 | A new animator has the given layout, `.center(.zero)` by default, and no blocks. |
| `PopupKit.Animator.RunAction` | Sources/PopupView.swift:394-563 | A closure's effect on the views is `ActionScene`, as written, under the current layout. A constraint's constant changes only if the constraint exists. |
| `PopupKit.Animator.Setup` | Sources/PopupView.swift:328-563 | Setup runs the base layout setup as written, then puts the content in its dismiss state. It stores the kind's display and dismiss closures. |
| `PopupKit.Animator.Display` | Sources/PopupView.swift:367-378 | Runs the display block under the current layout. The completion is due at once exactly when not animated. |
| `PopupKit.Animator.Dismiss` | Sources/PopupView.swift:380-391 | Runs the dismiss block under the current layout. The completion is due at once exactly when not animated. |
| `PopupKit.PopupView.constructor` | Sources/PopupView.swift:91-105 | A new popup has the container's size and is idle and detached. It is not dismissible, with background interaction off. Its content has been set up by the animator under the animator's layout, starting from no constraints. The animator's layout is unchanged. A non-base animator holds its kind's closures, and the base animator keeps the closures it had. |
| `PopupKit.PopupView.SetDismissible` | Sources/PopupView.swift:67-71 | `isDismissible` is mirrored into the background's interaction flag. |
| `PopupKit.PopupView.HitTest` | Sources/PopupView.swift:111-127 | The same decision table as the older snapshots. |
| `PopupKit.PopupView.Display` | Sources/PopupView.swift:129-142 | The state changes as `Presentation.Display` says. The views change by the display block under the animator's layout. |
| `PopupKit.PopupView.Dismiss` | Sources/PopupView.swift:144-156 | The state changes as `Presentation.Dismiss` says. The views change by the dismiss block under the animator's layout. |
| `PopupKit.PopupView.CompleteDisplay` | Sources/PopupView.swift:137-141 | The display completion, as `Presentation.CompleteDisplay` says. |
| `PopupKit.PopupView.CompleteDismiss` | Sources/PopupView.swift:150-155 | The dismiss completion, as `Presentation.CompleteDismiss` says. |
| `PopupKit.PopupView.RunUserCompletion` | Sources/PopupView.swift:137-141 | The caller's completion runs with the guard set, and a call back in is dropped. |
| `PopupKit.PopupView.FinishAnimation` | Sources/PopupView.swift:367-391 | The animation engine calls the held completion once. |
| `PopupKit.PopupView.BackgroundViewClicked` | Sources/PopupView.swift:158-160 | A tap on the background is an animated dismiss with no completion. |

## Left out

- Animation timing is left out: durations, options, and the curve between
  start and end. An animation is its end state applied at once. Its
  completion is deferred until `FinishAnimation`. The `finished` flag, which
  the source ignores, is not modelled.
- The will/did callbacks are recorded as trace events, with no code of their
  own, whether or not a callback is set. Code inside a callback that calls
  back into the popup is not modelled.
- A caller's completion makes at most one call back into the popup, without a
  completion of its own (`Presentation.Completion`). Longer chains are not
  modelled. They would be dropped the same way while the guard is set.
- Geometry inside the hit-test is left out: `convert(_:to:)`, `bounds.contains`
  and `super.hitTest` become inputs (a boolean, and a found view or nil).
- `layoutSubviews` and the effect view's frame are left out: they keep the
  background and effect view the size of the popup.
- Auto Layout solving (`layoutIfNeeded`) is left out. The content's size is
  its frame size, and width or height constraints do not resize it.
- `PopupKit.Animator.Setup` replaces the popup's constraints on the content
  rather than adding to them. The popup always calls it exactly once, on a
  popup with no such constraints.
- The popup's default animator, `FadeInOutAnimator()`, is left out because
  it is an object default argument. Callers pass the animator explicitly.
- `[weak self]`, `weak`/`unowned` container references and `deinit` are left
  out. So is the strong container reference of the legacy snapshot.
- Target-action wiring is not modelled; a tap is the
  `BackgroundViewClicked` call.
- The `popupView()`/`jx_popupView` lookup extensions are not modelled.
- `layer.allowsGroupOpacity` is not modelled.
- `init(coder:)` is not modelled.
- The visual blur is not modelled. The blur style is recorded, and colours
  are RGBA values.
- JXPopupView/Example/CustomAnimator.swift is not part of this model. It is
  written against a `setup` without a container, and against layout helpers
  that none of the three snapshots has.

## Findings

The classes run the code as written. Each corrected definition sits beside it in the same module, with the intended property proved about it.

| source | as written | input that shows it | evidently intended | confidence | as-written member | corrected member |
|---|---|---|---|---|---|---|
| Sources/PopupView.swift:497-508 | Under the frame layout, the downward slide's start frame takes `y = popupView.frame.size.height`, the same as the upward slide. | `DownwardAnimator` with `.frame(CGRect(x: 0, y: 100, width: 200, height: 50))` in a 600-point-tall popup: the content starts at `y = 600`, below the popup. | `y = -frame.size.height`: start above the popup, as the constraint branch and the older snapshots do. | high; not executed | `PopupKit.DownwardFrameAsWritten` | `PopupKit.SlideStartsOutside` |
| Sources/PopupView.swift:350-359 | The bottom layout activates `contentView.topAnchor == popupView.topAnchor + bottomMargin`. | `.bottom(Bottom(bottomMargin: 10))`: the content is pinned 10 points below the popup's top edge, exactly like `.top(Top(topMargin: 10))`. | `contentView.bottomAnchor == popupView.bottomAnchor - bottomMargin`. | high; not executed | `PopupKit.BottomLayoutAsWritten` | `PopupKit.BaseConstraintsPinTheirEdge` |
| Sources/PopupView.swift:212-221 | In blur style `refreshBackgroundStyle` adds a new effect view without removing the one `effectView` refers to. The same code is in Sources/JXPopupView.swift:240-248. | Set `style = .blur`, then `blurEffectStyle = .light`, then `style = .solidColor`. The first blur view stays attached and keeps blurring. | Remove the previous effect view before adding a new one. | high; not executed | `Backdrop.StackedEffectViewsAsWritten` | `Backdrop.RefreshKeepsTidy` |
| Sources/PopupView.swift:203-210 | `view == effectView` compares two optionals, so it holds when both are nil. | A solid-colour background (no effect view) hit-tested where `super.hitTest` finds nothing: with `isUserInteractionEnabled == false` (a popup that is not dismissible, the default) or at a point outside its bounds. It returns the background instead of nil. | Redirect only a hit on an existing effect view; a miss stays nil. | medium; not executed | `Backdrop.MissRedirectedAsWritten` | `Backdrop.Redirect` |

=== FILE: backdrop.dfy ===
/** The popup's background view (`PopupView.BackgroundView`, and
    `JXBackgroundView` in the two older files, whose code for style, colour,
    effect view and hit-testing is the same).

    The background is a full-bleed control behind the content.  Its style is
    a solid colour or a blur; in blur style it carries a visual-effect subview,
    and its colour is applied whatever the style.  Effect views are identified
    by number; `effectSubviews` lists the effect views currently attached as
    subviews, so that a blur view left behind can be seen. */
module Backdrop {
  import opened Geometry

  datatype Style = SolidColor | Blur

  /** `UIBlurEffect.Style`, of which the model only needs the identity. */
  datatype BlurStyle = ExtraLight | Light | Dark | Regular | Prominent

  datatype Color = Rgba(red: real, green: real, blue: real, alpha: real)

  /** `UIColor.black.withAlphaComponent(0.3)`. */
  const DefaultColor := Rgba(0.0, 0.0, 0.0, 0.3)

  /** A view a hit-test can return: the background itself, one of its effect
      views, or some other view. */
  datatype Hit = BackgroundHit | EffectHit(id: nat) | OtherHit(id: nat)

  /** The effect-view bookkeeping of a background, as a value. */
  datatype Surface = Surface(style: Style, effectView: Option<nat>, effectSubviews: seq<nat>, nextId: nat)

  /** `effectView?.removeFromSuperview()`. */
  function Detach(subviews: seq<nat>, view: Option<nat>): (r: seq<nat>)
    ensures view.None? ==> r == subviews
    ensures view.Some? ==> view.value !in r
    ensures forall i :: i in r <==> i in subviews && Some(i) != view
    decreases |subviews|
  {
    if view.None? || subviews == [] then subviews
    else if subviews[0] == view.value then Detach(subviews[1..], view)
    else [subviews[0]] + Detach(subviews[1..], view)
  }

  /** `refreshBackgroundStyle()` as written: in blur style a new effect view
      replaces the reference in `effectView` and is added, but the one it
      replaces is never removed. */
  function RefreshedAsWritten(s: Surface): Surface
  {
    if s.style == SolidColor then
      s.(effectView := None, effectSubviews := Detach(s.effectSubviews, s.effectView))
    else
      s.(effectView := Some(s.nextId), effectSubviews := s.effectSubviews + [s.nextId], nextId := s.nextId + 1)
  }

  /** `refreshBackgroundStyle()` with the previous effect view removed before a
      new one is added. */
  function Refreshed(s: Surface): Surface
  {
    if s.style == SolidColor then
      s.(effectView := None, effectSubviews := Detach(s.effectSubviews, s.effectView))
    else
      s.(effectView := Some(s.nextId), effectSubviews := Detach(s.effectSubviews, s.effectView) + [s.nextId],
         nextId := s.nextId + 1)
  }

  /** The only attached effect view is the one `effectView` refers to, and it
      exists exactly in blur style. */
  predicate Tidy(s: Surface)
  {
    && (s.effectView.None? <==> s.style == SolidColor)
    && s.effectSubviews == (if s.effectView.Some? then [s.effectView.value] else [])
  }

  /** Whatever style is chosen, a refresh from a tidy background leaves it tidy:
      `effectView` is nil exactly in solid style and no blur view is left behind. */
  lemma RefreshKeepsTidy(s: Surface, style: Style)
    requires Tidy(s)
    ensures Tidy(Refreshed(s.(style := style)))
  {
    if s.effectView.Some? {
      var v := s.effectView.value;
      assert Detach([v], Some(v)) == Detach([], Some(v)) == [];
    }
  }

  /** What the code as written keeps: `effectView` is nil exactly in solid
      style, the view it names is attached, and every attached effect view was
      created before the next identifier. */
  predicate Linked(s: Surface)
  {
    && (s.effectView.None? <==> s.style == SolidColor)
    && (s.effectView.Some? ==> s.effectView.value in s.effectSubviews)
    && (forall i :: i in s.effectSubviews ==> i < s.nextId)
  }

  /** A refresh as written keeps the background linked whatever style is
      chosen; in blur style it attaches a new view, keeps every attached one
      and adds no other; in solid style it removes only the view `effectView`
      names. */
  lemma RefreshAsWrittenKeepsLinked(s: Surface, style: Style)
    requires Linked(s)
    ensures var r := RefreshedAsWritten(s.(style := style));
            && Linked(r)
            && (style == Blur ==> r.effectView == Some(s.nextId) && s.nextId !in s.effectSubviews
                                  && r.effectSubviews == s.effectSubviews + [s.nextId])
            && (style == SolidColor ==> forall i :: i in r.effectSubviews <==> i in s.effectSubviews && Some(i) != s.effectView)
  {
  }

  /** As written, a second refresh in blur style (for instance setting
      `blurEffectStyle`) followed by a switch to solid colour leaves the first
      blur view attached, and a hit on it is not redirected to the background. */
  lemma StackedEffectViewsAsWritten()
    ensures var s0 := Surface(Blur, None, [], 0);
            var s1 := RefreshedAsWritten(s0);
            var s2 := RefreshedAsWritten(s1);
            var s3 := RefreshedAsWritten(s2.(style := SolidColor));
            && s3.effectView.None? && s3.effectSubviews == [0] && !Tidy(s3)
            && RedirectAsWritten(Some(EffectHit(0)), s3.effectView) == Some(EffectHit(0))
  {
    var s0 := Surface(Blur, None, [], 0);
    var s1 := RefreshedAsWritten(s0);
    assert s1.effectSubviews == [0];
    var s2 := RefreshedAsWritten(s1);
    assert s2.effectSubviews == [0, 1] && s2.effectView == Some(1);
    var s3 := RefreshedAsWritten(s2.(style := SolidColor));
    assert Detach([0, 1], Some(1)) == [0] + Detach([1], Some(1));
    assert Detach([1], Some(1)) == Detach([], Some(1)) == [];
  }

  /** The same sequence of refreshes with the correction leaves no blur view. */
  lemma StackedEffectViewsCorrected()
    ensures var s0 := Surface(Blur, None, [], 0);
            var s3 := Refreshed(Refreshed(Refreshed(s0)).(style := SolidColor));
            s3.effectView.None? && s3.effectSubviews == []
  {
    var s1 := Refreshed(Surface(Blur, None, [], 0));
    assert s1.effectSubviews == [0];
    var s2 := Refreshed(s1);
    assert Detach([0], Some(0)) == Detach([], Some(0)) == [];
    assert s2.effectSubviews == [1];
    assert Detach([1], Some(1)) == Detach([], Some(1)) == [];
  }

  /** The hit redirect of `hitTest(_:with:)` as written: `view == effectView`
      compares two optionals, so a miss (`nil`) with no effect view (`nil`)
      also counts as a hit on the effect view. */
  function RedirectAsWritten(superHit: Option<Hit>, effectView: Option<nat>): (r: Option<Hit>)
    ensures r.None? <==> superHit.None? && effectView.Some?
    ensures r == Some(BackgroundHit) <==>
              || superHit == Some(BackgroundHit)
              || (effectView.Some? && superHit == Some(EffectHit(effectView.value)))
              || (effectView.None? && superHit.None?)
    ensures r != Some(BackgroundHit) ==> r == superHit
  {
    var effect := if effectView.Some? then Some(EffectHit(effectView.value)) else None;
    if superHit == effect then Some(BackgroundHit) else superHit
  }

  /** As written, a miss on a solid background is reported as a hit on the background. */
  lemma MissRedirectedAsWritten()
    ensures RedirectAsWritten(None, None) == Some(BackgroundHit)
  {
  }

  /** The redirect as intended: a hit on the current effect view becomes a hit
      on the background; a miss stays a miss and every other hit is kept. */
  function Redirect(superHit: Option<Hit>, effectView: Option<nat>): (r: Option<Hit>)
    ensures r.None? <==> superHit.None?
    ensures r == Some(BackgroundHit) <==>
              superHit == Some(BackgroundHit) || (effectView.Some? && superHit == Some(EffectHit(effectView.value)))
    ensures r != Some(BackgroundHit) ==> r == superHit
  {
    if superHit.Some? && effectView.Some? && superHit.value == EffectHit(effectView.value) then Some(BackgroundHit)
    else superHit
  }

  /** The two redirects differ only on a miss when there is no effect view. */
  lemma RedirectAgreesOnHits(superHit: Option<Hit>, effectView: Option<nat>)
    requires superHit.Some? || effectView.Some?
    ensures RedirectAsWritten(superHit, effectView) == Redirect(superHit, effectView)
  {
  }

  class BackgroundView {
    var style: Style
    var blurEffectStyle: BlurStyle
    /** Applied whatever the style. */
    var color: Color
    var backgroundColor: Color
    var effectView: Option<nat>
    var effectSubviews: seq<nat>
    var nextEffectId: nat
    var alpha: real
    var isUserInteractionEnabled: bool

    ghost function Effects(): Surface
      reads this
    {
      Surface(style, effectView, effectSubviews, nextEffectId)
    }

    /** Effect view present exactly in blur style and attached, and the colour
        always applied. Earlier blur views may still be attached: see
        `StackedEffectViewsAsWritten`. */
    ghost predicate Valid()
      reads this
    {
      Linked(Effects()) && backgroundColor == color
    }

    /** `init(frame:)`. */
    constructor ()
      ensures Valid()
      ensures style == SolidColor && blurEffectStyle == Dark && effectView.None?
      ensures color == DefaultColor && alpha == 1.0 && isUserInteractionEnabled
    {
      style := SolidColor;
      blurEffectStyle := Dark;
      color := DefaultColor;
      effectView := None;
      effectSubviews := [];
      nextEffectId := 0;
      alpha := 1.0;
      isUserInteractionEnabled := true;
      new;
      RefreshBackgroundStyle();
      backgroundColor := color;
    }

    /** `refreshBackgroundStyle()`. */
    method RefreshBackgroundStyle()
      modifies this
      ensures Effects() == RefreshedAsWritten(old(Effects()))
      ensures style == old(style) && blurEffectStyle == old(blurEffectStyle)
      ensures color == old(color) && backgroundColor == old(backgroundColor)
      ensures alpha == old(alpha) && isUserInteractionEnabled == old(isUserInteractionEnabled)
    {
      if style == SolidColor {
        effectSubviews := Detach(effectSubviews, effectView);
        effectView := None;
      } else {
        effectView := Some(nextEffectId);
        effectSubviews := effectSubviews + [nextEffectId];
        nextEffectId := nextEffectId + 1;
      }
    }

    /** Setting `style`. The colour is untouched whichever way the style goes. */
    method SetStyle(s: Style)
      requires Valid()
      modifies this
      ensures Valid()
      ensures style == s && (effectView.None? <==> s == SolidColor)
      ensures Effects() == RefreshedAsWritten(old(Effects()).(style := s))
      ensures color == old(color) && backgroundColor == old(backgroundColor)
      ensures blurEffectStyle == old(blurEffectStyle)
      ensures alpha == old(alpha) && isUserInteractionEnabled == old(isUserInteractionEnabled)
    {
      style := s;
      RefreshBackgroundStyle();
      RefreshAsWrittenKeepsLinked(old(Effects()), s);
    }

    /** Setting `blurEffectStyle`: in blur style a new effect view is added
        over the old one, which stays attached; in solid style nothing
        changes. */
    method SetBlurEffectStyle(b: BlurStyle)
      requires Valid()
      modifies this
      ensures Valid()
      ensures blurEffectStyle == b && style == old(style)
      ensures Effects() == RefreshedAsWritten(old(Effects()))
      ensures style == SolidColor ==> Effects() == old(Effects())
      ensures style == Blur ==> effectSubviews == old(effectSubviews) + [effectView.value]
                                && old(effectView.value) in effectSubviews && effectView != old(effectView)
      ensures color == old(color) && backgroundColor == old(backgroundColor)
      ensures alpha == old(alpha) && isUserInteractionEnabled == old(isUserInteractionEnabled)
    {
      blurEffectStyle := b;
      RefreshBackgroundStyle();
      assert old(Effects()).(style := style) == old(Effects());
      RefreshAsWrittenKeepsLinked(old(Effects()), style);
    }

    /** Setting `color`: the background colour follows, whatever the style. */
    method SetColor(c: Color)
      requires Valid()
      modifies this`color, this`backgroundColor
      ensures Valid()
      ensures color == c && backgroundColor == c
    {
      color := c;
      backgroundColor := color;
    }

    /** `hitTest(_:with:)`: `superHit` is what the default hit-test found. */
    function HitTest(superHit: Option<Hit>): (r: Option<Hit>)
      reads this
      requires Valid()
      ensures r.None? <==> superHit.None? && style == Blur
      ensures r == Some(BackgroundHit) <==>
                || superHit == Some(BackgroundHit)
                || (style == Blur && superHit == Some(EffectHit(effectView.value)))
                || (style == SolidColor && superHit.None?)
      ensures r != Some(BackgroundHit) ==> r == superHit
      ensures superHit.Some? ==> r == Redirect(superHit, effectView)
    {
      RedirectAsWritten(superHit, effectView)
    }
  }
}

=== FILE: custom_animator.dfy ===
/** The example custom animator (`JXPopupViewCustomAnimator`): the content
    enters from above-left of the container, rests at its own frame, and leaves
    towards below-right. */
module CustomAnimator {
  import opened Geometry
  import opened Backdrop
  import opened FrameAnimation

  /** The setup assignments and stored blocks for a content frame `frame` read at setup. */
  function CustomPlan(frame: Rect, container: Size): Plan
  {
    var source := frame.(x := -frame.w, y := -frame.h);
    var dismissRect := frame.(x := container.w, y := container.h);
    Plan(Some(Move(source, 0.0)), Some(Move(frame, 1.0)), Some(Move(dismissRect, 0.0)))
  }

  /** `setup(contentView:backgroundView:containerView:)`: returns the display and
      dismiss blocks it stores. */
  method Setup(content: ContentView, background: BackgroundView, container: Size) returns (display: Block, dismiss: Block)
    modifies content, background`alpha
    ensures var p := CustomPlan(old(content.frame), container);
            && p.display == Some(display) && p.dismiss == Some(dismiss)
            && SceneOf(content, background) == Apply(p.setup, old(SceneOf(content, background)))
  {
    var frame := content.frame;
    frame := frame.(x := -content.frame.w);
    frame := frame.(y := -content.frame.h);
    var sourceRect := frame;

    var targetRect := content.frame;

    var dismissRect := content.frame;
    dismissRect := dismissRect.(x := container.w);
    dismissRect := dismissRect.(y := container.h);

    content.frame := sourceRect;
    background.alpha := 0.0;

    display := Move(targetRect, 1.0);
    dismiss := Move(dismissRect, 0.0);
  }

  /** The three rectangles keep the content's size; the source lies entirely
      above and to the left of the container's origin, the display target is the
      frame before setup, and the dismiss rectangle starts at the container's
      bottom-right corner. Setup leaves the content at the source, transparent
      background. */
  lemma CustomGeometry(s: Scene, container: Size)
    ensures var p := CustomPlan(s.frame, container);
            var setupScene := Apply(p.setup, s);
            var source := setupScene.frame;
            var target := Apply(p.display, setupScene).frame;
            var gone := Apply(p.dismiss, Apply(p.display, setupScene)).frame;
            && source.w == s.frame.w && source.h == s.frame.h
            && source.x + source.w == 0.0 && source.y + source.h == 0.0
            && target == s.frame
            && gone.w == s.frame.w && gone.h == s.frame.h
            && gone.x == container.w && gone.y == container.h
            && setupScene.backgroundAlpha == 0.0
            && Apply(p.display, setupScene).backgroundAlpha == 1.0
            && Apply(p.dismiss, Apply(p.display, setupScene)).backgroundAlpha == 0.0
  {
  }

  /** Unlike the built-in slides, dismissing does not return to the setup
      state: whenever the content or the container has a positive width, the
      content ends somewhere else than where it started. */
  lemma CustomNotRoundTrip(s: Scene, container: Size)
    requires s.frame.w >= 0.0 && container.w >= 0.0
    requires s.frame.w > 0.0 || container.w > 0.0
    ensures var p := CustomPlan(s.frame, container);
            Apply(p.dismiss, Apply(p.display, Apply(p.setup, s))) != Apply(p.setup, s)
  {
    var p := CustomPlan(s.frame, container);
    assert Apply(p.dismiss, Apply(p.display, Apply(p.setup, s))).frame.x == container.w;
    assert Apply(p.setup, s).frame.x == -s.frame.w;
  }
}

=== FILE: frame_animation.dfy ===
/** Frame-based animators of the two older versions (`JXPopupViewBaseAnimator`
    and its slide, fade and zoom subclasses, identical in both files), and the
    stored animation blocks they share with the custom animator.

    `setup` reads the content's current frame, places the content in its
    source state and stores two blocks; each block is a closure that assigns
    fixed, captured values, so a block is modelled as the record of the
    assignments it makes. */
module FrameAnimation {
  import opened Geometry
  import opened Backdrop

  /** The caller's content view: its frame, alpha and uniform scale transform.
      Its bounds size is its frame size (the slide animators never transform it). */
  class ContentView {
    var frame: Rect
    var alpha: real
    var scale: real

    constructor (frame: Rect)
      ensures this.frame == frame && alpha == 1.0 && scale == IdentityScale
    {
      this.frame := frame;
      alpha := 1.0;
      scale := IdentityScale;
    }
  }

  /** What the animators drive: content frame, alpha and scale, background alpha. */
  datatype Scene = Scene(frame: Rect, contentAlpha: real, scale: real, backgroundAlpha: real)

  ghost function SceneOf(content: ContentView, background: BackgroundView): Scene
    reads content, background
  {
    Scene(content.frame, content.alpha, content.scale, background.alpha)
  }

  /** A stored animation block: the assignments it makes (`None`: not touched). */
  datatype Block = Block(frame: Option<Rect>, contentAlpha: Option<real>, scale: Option<real>, backgroundAlpha: Option<real>)

  /** Runs `block?()` on a scene; a nil block does nothing. */
  function Apply(block: Option<Block>, s: Scene): Scene
  {
    match block
    case None => s
    case Some(b) =>
      Scene(if b.frame.Some? then b.frame.value else s.frame,
            if b.contentAlpha.Some? then b.contentAlpha.value else s.contentAlpha,
            if b.scale.Some? then b.scale.value else s.scale,
            if b.backgroundAlpha.Some? then b.backgroundAlpha.value else s.backgroundAlpha)
  }

  /** `contentView.frame = rect; backgroundView.alpha = alpha`. */
  function Move(rect: Rect, alpha: real): Block
  {
    Block(Some(rect), None, None, Some(alpha))
  }

  /** `contentView.alpha = alpha; backgroundView.alpha = alpha`. */
  function Fade(alpha: real): Block
  {
    Block(None, Some(alpha), None, Some(alpha))
  }

  /** The fade assignments plus `contentView.transform = scale`. */
  function Zoom(alpha: real, scale: real): Block
  {
    Block(None, Some(alpha), Some(scale), Some(alpha))
  }

  /** `self.displayAnimateBlock?()` / `self.dismissAnimateBlock?()`. */
  method RunBlock(block: Option<Block>, content: ContentView, background: BackgroundView)
    modifies content, background`alpha
    ensures SceneOf(content, background) == Apply(block, old(SceneOf(content, background)))
  {
    if block.Some? {
      var b := block.value;
      if b.frame.Some? {
        content.frame := b.frame.value;
      }
      if b.contentAlpha.Some? {
        content.alpha := b.contentAlpha.value;
      }
      if b.scale.Some? {
        content.scale := b.scale.value;
      }
      if b.backgroundAlpha.Some? {
        background.alpha := b.backgroundAlpha.value;
      }
    }
  }

  /** The built-in animators: the base class itself and its six subclasses. */
  datatype Kind = Base | Leftward | Rightward | Upward | Downward | FadeInOut | ZoomInOut
  {
    predicate IsSlide()
    {
      Leftward? || Rightward? || Upward? || Downward?
    }
  }

  /** The source frame of a slide: the content frame with one origin coordinate
      moved so that the content starts just outside the container. */
  function SlideSource(kind: Kind, frame: Rect, container: Size): Rect
    requires kind.IsSlide()
  {
    match kind
    case Leftward => frame.(x := container.w)
    case Rightward => frame.(x := -frame.w)
    case Upward => frame.(y := container.h)
    case Downward => frame.(y := -frame.h)
  }

  /** What `setup` assigns, and the two blocks it stores. */
  datatype Plan = Plan(setup: Option<Block>, display: Option<Block>, dismiss: Option<Block>)

  /** The plan of a built-in animator for a content frame `frame` read at setup. */
  function PlanFor(kind: Kind, frame: Rect, container: Size): Plan
  {
    match kind
    case Base => Plan(None, None, None)
    case FadeInOut => Plan(Some(Fade(0.0)), Some(Fade(1.0)), Some(Fade(0.0)))
    case ZoomInOut => Plan(Some(Zoom(0.0, ShrunkScale)), Some(Zoom(1.0, IdentityScale)), Some(Zoom(0.0, ShrunkScale)))
    case _ =>
      var source := SlideSource(kind, frame, container);
      Plan(Some(Move(source, 0.0)), Some(Move(frame, 1.0)), Some(Move(source, 0.0)))
  }

  /** A slide's source frame keeps the content's size and differs from the
      content frame in exactly the origin coordinate of its axis, which puts
      the content just beyond one edge of the container: the right edge for
      leftward, the left edge for rightward, the bottom edge for upward and
      the top edge for downward. */
  lemma SlideSourceGeometry(kind: Kind, frame: Rect, container: Size)
    requires kind.IsSlide()
    ensures var r := SlideSource(kind, frame, container);
            && r.w == frame.w && r.h == frame.h
            && (kind.Leftward? || kind.Rightward? ==> r.y == frame.y)
            && (kind.Upward? || kind.Downward? ==> r.x == frame.x)
            && (kind.Leftward? ==> r.x == container.w)
            && (kind.Rightward? ==> r.x + r.w == 0.0)
            && (kind.Upward? ==> r.y == container.h)
            && (kind.Downward? ==> r.y + r.h == 0.0)
  {
  }

  /** The dismiss block of every built-in animator makes exactly the assignments
      of its setup, so dismissing puts the content back in its setup state. */
  lemma DismissIsSetup(kind: Kind, frame: Rect, container: Size)
    ensures PlanFor(kind, frame, container).dismiss == PlanFor(kind, frame, container).setup
  {
  }

  /** The scene a built-in animator's display block produces from `s`. */
  function Shown(kind: Kind, s: Scene): Scene
  {
    match kind
    case Base => s
    case FadeInOut => s.(contentAlpha := 1.0, backgroundAlpha := 1.0)
    case ZoomInOut => s.(contentAlpha := 1.0, scale := IdentityScale, backgroundAlpha := 1.0)
    case _ => s.(backgroundAlpha := 1.0)
  }

  /** Display after setup lands on the content as it was before setup, made
      visible: the original frame for slides (background alpha 1), alpha 1 for
      fade, alpha 1 and the identity transform for zoom. */
  lemma DisplayAfterSetup(kind: Kind, s: Scene, container: Size)
    ensures var p := PlanFor(kind, s.frame, container);
            Apply(p.display, Apply(p.setup, s)) == Shown(kind, s)
  {
  }

  /** Dismiss after display after setup returns to the post-setup scene. */
  lemma DismissAfterDisplay(kind: Kind, s: Scene, container: Size)
    ensures var p := PlanFor(kind, s.frame, container);
            Apply(p.dismiss, Apply(p.display, Apply(p.setup, s))) == Apply(p.setup, s)
  {
  }
}

=== FILE: geometry.dfy ===
/** Plain values shared by every part of the popup model: an optional value
    (Swift's `T?`) and the rectangle and size records of the view geometry.
    Coordinates are `real`: the animators only assign, negate, add and halve. */
module Geometry {

  /** Swift's `Optional`. */
  datatype Option<+T> = None | Some(value: T)

  /** A `CGSize`: the bounds of a container or popup view. */
  datatype Size = Size(w: real, h: real)

  /** A `CGRect`: origin `(x, y)` and size `(w, h)`. */
  datatype Rect = Rect(x: real, y: real, w: real, h: real)

  /** The uniform scale of `CGAffineTransform(scaleX: 0.3, y: 0.3)`, the zoom animators' source. */
  const ShrunkScale: real := 0.3

  /** The scale of `CGAffineTransform.identity`. */
  const IdentityScale: real := 1.0
}

=== FILE: jx_popup.dfy ===
/** `JXPopupView` and `JXPopupViewBaseAnimator` as they stand in
    Sources/JXPopupView.swift: a popup over a container, with a background view,
    the caller's content view and a frame-based animator.

    The animation engine's `UIView.animate` runs the animation block at once and
    calls its completion later: the controller keeps that completion in
    `pending` and `FinishAnimation` is the engine calling it. */
module JXPopup {
  import opened Geometry
  import opened Backdrop
  import opened FrameAnimation
  import P = Presentation

  /** `JXPopupViewBaseAnimator` and its built-in subclasses. */
  class Animator {
    const kind: Kind
    var displayAnimateBlock: Option<Block>
    var dismissAnimateBlock: Option<Block>

    constructor (kind: Kind)
      ensures this.kind == kind && displayAnimateBlock.None? && dismissAnimateBlock.None?
    {
      this.kind := kind;
      displayAnimateBlock := None;
      dismissAnimateBlock := None;
    }

    /** `setup(contentView:backgroundView:containerView:)`. */
    method Setup(content: ContentView, background: BackgroundView, container: Size)
      modifies this, content, background`alpha
      ensures var p := PlanFor(kind, old(content.frame), container);
              SceneOf(content, background) == Apply(p.setup, old(SceneOf(content, background)))
      ensures var p := PlanFor(kind, old(content.frame), container);
              !kind.Base? ==> displayAnimateBlock == p.display && dismissAnimateBlock == p.dismiss
      ensures kind.Base? ==> displayAnimateBlock == old(displayAnimateBlock) && dismissAnimateBlock == old(dismissAnimateBlock)
    {
      match kind {
        case Base =>
        case Leftward =>
          var frame := content.frame;
          frame := frame.(x := container.w);
          InstallSlide(frame, content, background);
        case Rightward =>
          var frame := content.frame;
          frame := frame.(x := -content.frame.w);
          InstallSlide(frame, content, background);
        case Upward =>
          var frame := content.frame;
          frame := frame.(y := container.h);
          InstallSlide(frame, content, background);
        case Downward =>
          var frame := content.frame;
          frame := frame.(y := -content.frame.h);
          InstallSlide(frame, content, background);
        case FadeInOut =>
          content.alpha := 0.0;
          background.alpha := 0.0;
          displayAnimateBlock := Some(Fade(1.0));
          dismissAnimateBlock := Some(Fade(0.0));
        case ZoomInOut =>
          content.alpha := 0.0;
          background.alpha := 0.0;
          content.scale := ShrunkScale;
          displayAnimateBlock := Some(Zoom(1.0, IdentityScale));
          dismissAnimateBlock := Some(Zoom(0.0, ShrunkScale));
      }
    }

    /** The common tail of the four slide setups. */
    method InstallSlide(sourceRect: Rect, content: ContentView, background: BackgroundView)
      modifies this`displayAnimateBlock, this`dismissAnimateBlock, content, background`alpha
      ensures displayAnimateBlock == Some(Move(old(content.frame), 1.0))
      ensures dismissAnimateBlock == Some(Move(sourceRect, 0.0))
      ensures SceneOf(content, background) == old(SceneOf(content, background)).(frame := sourceRect, backgroundAlpha := 0.0)
    {
      var targetRect := content.frame;
      content.frame := sourceRect;
      background.alpha := 0.0;
      displayAnimateBlock := Some(Move(targetRect, 1.0));
      dismissAnimateBlock := Some(Move(sourceRect, 0.0));
    }

    /** `display(contentView:backgroundView:animated:completion:)`: runs the
        display block; `finished` says the completion is to be called now
        (no animation) rather than by the animation engine. */
    method Display(content: ContentView, background: BackgroundView, animated: bool) returns (finished: bool)
      modifies content, background`alpha
      ensures finished == !animated
      ensures SceneOf(content, background) == Apply(displayAnimateBlock, old(SceneOf(content, background)))
    {
      if animated {
        RunBlock(displayAnimateBlock, content, background);
        finished := false;
      } else {
        RunBlock(displayAnimateBlock, content, background);
        finished := true;
      }
    }

    /** `dismiss(contentView:backgroundView:animated:completion:)`. */
    method Dismiss(content: ContentView, background: BackgroundView, animated: bool) returns (finished: bool)
      modifies content, background`alpha
      ensures finished == !animated
      ensures SceneOf(content, background) == Apply(dismissAnimateBlock, old(SceneOf(content, background)))
    {
      if animated {
        RunBlock(dismissAnimateBlock, content, background);
        finished := false;
      } else {
        RunBlock(dismissAnimateBlock, content, background);
        finished := true;
      }
    }
  }

  /** The popup controller. */
  class JXPopupView {
    /** Mirrored into `background.isUserInteractionEnabled`. */
    var isDismissible: bool
    var isInteractive: bool
    var isPenetrable: bool
    var isAnimating: bool
    /** The popup is a subview of its container. */
    var attached: bool
    /** The completion the animation engine holds. */
    var pending: Option<P.Pending>
    /** The callbacks fired so far. */
    var trace: seq<P.Entry>
    const container: Size
    const content: ContentView
    const background: BackgroundView
    const animator: Animator

    ghost function Control(): P.Control
      reads this
    {
      P.Control(isAnimating, attached, pending, trace)
    }

    ghost function Scene(): Scene
      reads this, content, background
    {
      SceneOf(content, background)
    }

    /** The settings no presentation step changes. */
    ghost function Settings(): (bool, bool, bool)
      reads this
    {
      (isDismissible, isInteractive, isPenetrable)
    }

    ghost predicate Valid()
      reads this, background
    {
      && background.Valid()
      && background.isUserInteractionEnabled == isDismissible
      && (pending.Some? ==> isAnimating)
    }

    /** `init(containerView:contentView:animator:)`. */
    constructor (container: Size, content: ContentView, animator: Animator)
      modifies content, animator
      ensures Valid() && fresh(background)
      ensures this.container == container && this.content == content && this.animator == animator
      ensures Control() == P.Initial
      ensures !isDismissible && isInteractive && !isPenetrable
      ensures background.style == SolidColor && background.color == DefaultColor
      ensures var p := PlanFor(animator.kind, old(content.frame), container);
              Scene() == Apply(p.setup, FrameAnimation.Scene(old(content.frame), old(content.alpha), old(content.scale), 1.0))
      ensures var p := PlanFor(animator.kind, old(content.frame), container);
              !animator.kind.Base? ==> animator.displayAnimateBlock == p.display && animator.dismissAnimateBlock == p.dismiss
      ensures animator.kind.Base? ==>
                animator.displayAnimateBlock == old(animator.displayAnimateBlock)
                && animator.dismissAnimateBlock == old(animator.dismissAnimateBlock)
    {
      this.container := container;
      this.content := content;
      this.animator := animator;
      var bg := new BackgroundView();
      background := bg;
      isDismissible := false;
      isInteractive := true;
      isPenetrable := false;
      isAnimating := false;
      attached := false;
      pending := None;
      trace := [];
      new;
      background.isUserInteractionEnabled := isDismissible;
      animator.Setup(content, background, container);
    }

    /** Setting `isDismissible`. */
    method SetDismissible(value: bool)
      requires Valid()
      modifies this`isDismissible, background`isUserInteractionEnabled
      ensures Valid()
      ensures isDismissible == value && background.isUserInteractionEnabled == value
    {
      isDismissible := value;
      background.isUserInteractionEnabled := isDismissible;
    }

    /** `hitTest(_:with:)`, given whether the point lies in the content's bounds. */
    function HitTest(pointInContent: bool): (r: P.HitResult)
      reads this
      ensures r == P.NoTarget <==> (pointInContent && !isInteractive) || (!pointInContent && isPenetrable)
    {
      P.HitTest(pointInContent, isInteractive, isPenetrable)
    }

    /** `display(animated:completion:)`. */
    method Display(animated: bool, completion: Option<P.Completion>)
      requires Valid()
      modifies this, content, background`alpha
      decreases P.Rank(completion), 3
      ensures Valid() && Settings() == old(Settings())
      ensures Control() == P.Display(old(Control()), animated, completion)
      ensures Scene() == if old(isAnimating) then old(Scene())
                         else Apply(animator.displayAnimateBlock, old(Scene()))
    {
      if isAnimating {
        return;
      }
      isAnimating := true;
      attached := true;
      trace := trace + [P.Entry(P.Attach, isAnimating)];
      trace := trace + [P.Entry(P.WillDisplay, isAnimating)];
      var finished := animator.Display(content, background, animated);
      if finished {
        CompleteDisplay(completion);
      } else {
        pending := Some(P.Pending(P.Displaying, completion));
      }
    }

    /** `dismiss(animated:completion:)`. */
    method Dismiss(animated: bool, completion: Option<P.Completion>)
      requires Valid()
      modifies this, content, background`alpha
      decreases P.Rank(completion), 3
      ensures Valid() && Settings() == old(Settings())
      ensures Control() == P.Dismiss(old(Control()), animated, completion)
      ensures Scene() == if old(isAnimating) then old(Scene())
                         else Apply(animator.dismissAnimateBlock, old(Scene()))
    {
      if isAnimating {
        return;
      }
      isAnimating := true;
      trace := trace + [P.Entry(P.WillDismiss, isAnimating)];
      var finished := animator.Dismiss(content, background, animated);
      if finished {
        CompleteDismiss(completion);
      } else {
        pending := Some(P.Pending(P.Dismissing, completion));
      }
    }

    /** The completion closure of `display`. */
    method CompleteDisplay(completion: Option<P.Completion>)
      requires Valid() && isAnimating && pending.None?
      modifies this, content, background`alpha
      decreases P.Rank(completion), 2
      ensures Valid() && Settings() == old(Settings()) && Scene() == old(Scene())
      ensures Control() == P.CompleteDisplay(old(Control()), completion)
    {
      RunUserCompletion(completion);
      isAnimating := false;
      trace := trace + [P.Entry(P.DidDisplay, isAnimating)];
    }

    /** The completion closure of `dismiss`. */
    method CompleteDismiss(completion: Option<P.Completion>)
      requires Valid() && isAnimating && pending.None?
      modifies this, content, background`alpha
      decreases P.Rank(completion), 2
      ensures Valid() && Settings() == old(Settings()) && Scene() == old(Scene())
      ensures Control() == P.CompleteDismiss(old(Control()), completion)
    {
      attached := false;
      trace := trace + [P.Entry(P.Detach, isAnimating)];
      RunUserCompletion(completion);
      isAnimating := false;
      trace := trace + [P.Entry(P.DidDismiss, isAnimating)];
    }

    /** `completion?()`: the caller's completion, which may call back in. */
    method RunUserCompletion(completion: Option<P.Completion>)
      requires Valid() && isAnimating
      modifies this, content, background`alpha
      decreases P.Rank(completion), 1
      ensures Valid() && isAnimating && pending == old(pending)
      ensures Settings() == old(Settings()) && Scene() == old(Scene())
      ensures Control() == P.RunUserCompletion(old(Control()), completion)
    {
      P.ReentryDropped(Control(), completion);
      if completion.Some? {
        trace := trace + [P.Entry(P.UserCompletion, isAnimating)];
        var reentry := completion.value.reentry;
        if reentry.Some? {
          if reentry.value.RequestDisplay? {
            Display(reentry.value.animated, None);
          } else {
            Dismiss(reentry.value.animated, None);
          }
        }
      }
    }

    /** The animation engine calls the completion it holds. */
    method FinishAnimation()
      requires Valid()
      modifies this, content, background`alpha
      ensures Valid() && Settings() == old(Settings()) && Scene() == old(Scene())
      ensures Control() == P.Finish(old(Control()))
    {
      if pending.Some? {
        var p := pending.value;
        pending := None;
        if p.transition == P.Displaying {
          CompleteDisplay(p.completion);
        } else {
          CompleteDismiss(p.completion);
        }
      }
    }

    /** `backgroundViewClicked()`. */
    method BackgroundViewClicked()
      requires Valid()
      modifies this, content, background`alpha
      ensures Valid() && Settings() == old(Settings())
      ensures Control() == P.Dismiss(old(Control()), true, None)
      ensures Scene() == if old(isAnimating) then old(Scene())
                         else Apply(animator.dismissAnimateBlock, old(Scene()))
    {
      Dismiss(true, None);
    }
  }
}

=== FILE: jx_popup_legacy.dfy ===
/** `JXPopupView` and `JXPopupViewBaseAnimator` in the earlier snapshot,
    JXPopupView/Source/JXPopupView.swift, together with the demo app's
    `JXPopupViewCustomAnimator`, which subclasses this snapshot's base
    animator.  Controller, background and built-in animators behave as in
    Sources/JXPopupView.swift; the container is held strongly rather than
    weakly, which the model does not distinguish.

    As there, `pending` is the completion the animation engine holds and
    `FinishAnimation` is the engine calling it. */
module JXPopupLegacy {
  import opened Geometry
  import opened Backdrop
  import opened FrameAnimation
  import CustomAnimator
  import P = Presentation

  /** The animators a popup of this snapshot can be given. */
  datatype AnimatorKind = Builtin(kind: Kind) | Custom

  /** What `setup` assigns and stores, for every animator of this snapshot. */
  function LegacyPlan(kind: AnimatorKind, frame: Rect, container: Size): Plan
  {
    match kind
    case Builtin(k) => PlanFor(k, frame, container)
    case Custom => CustomAnimator.CustomPlan(frame, container)
  }

  /** Every animator but the base one stores both blocks, and for all of them
      display after setup puts the content back on the frame it had before
      setup, with the background fully opaque; the built-in ones then dismiss
      back to the setup state. */
  lemma DisplayRestoresFrame(kind: AnimatorKind, s: Scene, container: Size)
    requires kind != Builtin(Base)
    ensures var p := LegacyPlan(kind, s.frame, container);
            var shown := Apply(p.display, Apply(p.setup, s));
            && p.display.Some? && p.dismiss.Some?
            && shown.frame == s.frame && shown.backgroundAlpha == 1.0
            && (kind.Builtin? ==> Apply(p.dismiss, shown) == Apply(p.setup, s))
  {
    match kind {
      case Builtin(k) =>
        DisplayAfterSetup(k, s, container);
        DismissAfterDisplay(k, s, container);
      case Custom =>
        CustomAnimator.CustomGeometry(s, container);
    }
  }

  /** `JXPopupViewBaseAnimator`, its built-in subclasses and `JXPopupViewCustomAnimator`. */
  class Animator {
    const kind: AnimatorKind
    var displayAnimateBlock: Option<Block>
    var dismissAnimateBlock: Option<Block>

    constructor (kind: AnimatorKind)
      ensures this.kind == kind && displayAnimateBlock.None? && dismissAnimateBlock.None?
    {
      this.kind := kind;
      displayAnimateBlock := None;
      dismissAnimateBlock := None;
    }

    /** `setup(contentView:backgroundView:containerView:)`. */
    method Setup(content: ContentView, background: BackgroundView, container: Size)
      modifies this, content, background`alpha
      ensures var p := LegacyPlan(kind, old(content.frame), container);
              SceneOf(content, background) == Apply(p.setup, old(SceneOf(content, background)))
      ensures var p := LegacyPlan(kind, old(content.frame), container);
              kind != Builtin(Base) ==> displayAnimateBlock == p.display && dismissAnimateBlock == p.dismiss
      ensures kind == Builtin(Base) ==> displayAnimateBlock == old(displayAnimateBlock) && dismissAnimateBlock == old(dismissAnimateBlock)
    {
      match kind {
        case Custom =>
          var display, dismiss := CustomAnimator.Setup(content, background, container);
          displayAnimateBlock := Some(display);
          dismissAnimateBlock := Some(dismiss);
        case Builtin(Base) =>
        case Builtin(Leftward) =>
          var frame := content.frame;
          frame := frame.(x := container.w);
          InstallSlide(frame, content, background);
        case Builtin(Rightward) =>
          var frame := content.frame;
          frame := frame.(x := -content.frame.w);
          InstallSlide(frame, content, background);
        case Builtin(Upward) =>
          var frame := content.frame;
          frame := frame.(y := container.h);
          InstallSlide(frame, content, background);
        case Builtin(Downward) =>
          var frame := content.frame;
          frame := frame.(y := -content.frame.h);
          InstallSlide(frame, content, background);
        case Builtin(FadeInOut) =>
          content.alpha := 0.0;
          background.alpha := 0.0;
          displayAnimateBlock := Some(Fade(1.0));
          dismissAnimateBlock := Some(Fade(0.0));
        case Builtin(ZoomInOut) =>
          content.alpha := 0.0;
          background.alpha := 0.0;
          content.scale := ShrunkScale;
          displayAnimateBlock := Some(Zoom(1.0, IdentityScale));
          dismissAnimateBlock := Some(Zoom(0.0, ShrunkScale));
      }
    }

    /** The common tail of the four slide setups. */
    method InstallSlide(sourceRect: Rect, content: ContentView, background: BackgroundView)
      modifies this`displayAnimateBlock, this`dismissAnimateBlock, content, background`alpha
      ensures displayAnimateBlock == Some(Move(old(content.frame), 1.0))
      ensures dismissAnimateBlock == Some(Move(sourceRect, 0.0))
      ensures SceneOf(content, background) == old(SceneOf(content, background)).(frame := sourceRect, backgroundAlpha := 0.0)
    {
      var targetRect := content.frame;
      content.frame := sourceRect;
      background.alpha := 0.0;
      displayAnimateBlock := Some(Move(targetRect, 1.0));
      dismissAnimateBlock := Some(Move(sourceRect, 0.0));
    }

    /** `display(contentView:backgroundView:animated:completion:)`: runs the
        display block; `finished` says the completion is to be called now
        (no animation) rather than by the animation engine. */
    method Display(content: ContentView, background: BackgroundView, animated: bool) returns (finished: bool)
      modifies content, background`alpha
      ensures finished == !animated
      ensures SceneOf(content, background) == Apply(displayAnimateBlock, old(SceneOf(content, background)))
    {
      if animated {
        RunBlock(displayAnimateBlock, content, background);
        finished := false;
      } else {
        RunBlock(displayAnimateBlock, content, background);
        finished := true;
      }
    }

    /** `dismiss(contentView:backgroundView:animated:completion:)`. */
    method Dismiss(content: ContentView, background: BackgroundView, animated: bool) returns (finished: bool)
      modifies content, background`alpha
      ensures finished == !animated
      ensures SceneOf(content, background) == Apply(dismissAnimateBlock, old(SceneOf(content, background)))
    {
      if animated {
        RunBlock(dismissAnimateBlock, content, background);
        finished := false;
      } else {
        RunBlock(dismissAnimateBlock, content, background);
        finished := true;
      }
    }
  }

  /** The popup controller. */
  class JXPopupView {
    /** Mirrored into `background.isUserInteractionEnabled`. */
    var isDismissible: bool
    var isInteractive: bool
    var isPenetrable: bool
    var isAnimating: bool
    /** The popup is a subview of its container. */
    var attached: bool
    /** The completion the animation engine holds. */
    var pending: Option<P.Pending>
    /** The callbacks fired so far. */
    var trace: seq<P.Entry>
    const container: Size
    const content: ContentView
    const background: BackgroundView
    const animator: Animator

    ghost function Control(): P.Control
      reads this
    {
      P.Control(isAnimating, attached, pending, trace)
    }

    ghost function Scene(): Scene
      reads this, content, background
    {
      SceneOf(content, background)
    }

    /** The settings no presentation step changes. */
    ghost function Settings(): (bool, bool, bool)
      reads this
    {
      (isDismissible, isInteractive, isPenetrable)
    }

    ghost predicate Valid()
      reads this, background
    {
      && background.Valid()
      && background.isUserInteractionEnabled == isDismissible
      && (pending.Some? ==> isAnimating)
    }

    /** `init(containerView:contentView:animator:)`. */
    constructor (container: Size, content: ContentView, animator: Animator)
      modifies content, animator
      ensures Valid() && fresh(background)
      ensures this.container == container && this.content == content && this.animator == animator
      ensures Control() == P.Initial
      ensures !isDismissible && isInteractive && !isPenetrable
      ensures background.style == SolidColor && background.color == DefaultColor
      ensures var p := LegacyPlan(animator.kind, old(content.frame), container);
              Scene() == Apply(p.setup, FrameAnimation.Scene(old(content.frame), old(content.alpha), old(content.scale), 1.0))
      ensures var p := LegacyPlan(animator.kind, old(content.frame), container);
              animator.kind != Builtin(Base) ==> animator.displayAnimateBlock == p.display && animator.dismissAnimateBlock == p.dismiss
      ensures animator.kind == Builtin(Base) ==>
                animator.displayAnimateBlock == old(animator.displayAnimateBlock)
                && animator.dismissAnimateBlock == old(animator.dismissAnimateBlock)
    {
      this.container := container;
      this.content := content;
      this.animator := animator;
      var bg := new BackgroundView();
      background := bg;
      isDismissible := false;
      isInteractive := true;
      isPenetrable := false;
      isAnimating := false;
      attached := false;
      pending := None;
      trace := [];
      new;
      background.isUserInteractionEnabled := isDismissible;
      animator.Setup(content, background, container);
    }

    /** Setting `isDismissible`. */
    method SetDismissible(value: bool)
      requires Valid()
      modifies this`isDismissible, background`isUserInteractionEnabled
      ensures Valid()
      ensures isDismissible == value && background.isUserInteractionEnabled == value
    {
      isDismissible := value;
      background.isUserInteractionEnabled := isDismissible;
    }

    /** `hitTest(_:with:)`, given whether the point lies in the content's bounds. */
    function HitTest(pointInContent: bool): (r: P.HitResult)
      reads this
      ensures r == P.NoTarget <==> (pointInContent && !isInteractive) || (!pointInContent && isPenetrable)
    {
      P.HitTest(pointInContent, isInteractive, isPenetrable)
    }

    /** `display(animated:completion:)`. */
    method Display(animated: bool, completion: Option<P.Completion>)
      requires Valid()
      modifies this, content, background`alpha
      decreases P.Rank(completion), 3
      ensures Valid() && Settings() == old(Settings())
      ensures Control() == P.Display(old(Control()), animated, completion)
      ensures Scene() == if old(isAnimating) then old(Scene())
                         else Apply(animator.displayAnimateBlock, old(Scene()))
    {
      if isAnimating {
        return;
      }
      isAnimating := true;
      attached := true;
      trace := trace + [P.Entry(P.Attach, isAnimating)];
      trace := trace + [P.Entry(P.WillDisplay, isAnimating)];
      var finished := animator.Display(content, background, animated);
      if finished {
        CompleteDisplay(completion);
      } else {
        pending := Some(P.Pending(P.Displaying, completion));
      }
    }

    /** `dismiss(animated:completion:)`. */
    method Dismiss(animated: bool, completion: Option<P.Completion>)
      requires Valid()
      modifies this, content, background`alpha
      decreases P.Rank(completion), 3
      ensures Valid() && Settings() == old(Settings())
      ensures Control() == P.Dismiss(old(Control()), animated, completion)
      ensures Scene() == if old(isAnimating) then old(Scene())
                         else Apply(animator.dismissAnimateBlock, old(Scene()))
    {
      if isAnimating {
        return;
      }
      isAnimating := true;
      trace := trace + [P.Entry(P.WillDismiss, isAnimating)];
      var finished := animator.Dismiss(content, background, animated);
      if finished {
        CompleteDismiss(completion);
      } else {
        pending := Some(P.Pending(P.Dismissing, completion));
      }
    }

    /** The completion closure of `display`. */
    method CompleteDisplay(completion: Option<P.Completion>)
      requires Valid() && isAnimating && pending.None?
      modifies this, content, background`alpha
      decreases P.Rank(completion), 2
      ensures Valid() && Settings() == old(Settings()) && Scene() == old(Scene())
      ensures Control() == P.CompleteDisplay(old(Control()), completion)
    {
      RunUserCompletion(completion);
      isAnimating := false;
      trace := trace + [P.Entry(P.DidDisplay, isAnimating)];
    }

    /** The completion closure of `dismiss`. */
    method CompleteDismiss(completion: Option<P.Completion>)
      requires Valid() && isAnimating && pending.None?
      modifies this, content, background`alpha
      decreases P.Rank(completion), 2
      ensures Valid() && Settings() == old(Settings()) && Scene() == old(Scene())
      ensures Control() == P.CompleteDismiss(old(Control()), completion)
    {
      attached := false;
      trace := trace + [P.Entry(P.Detach, isAnimating)];
      RunUserCompletion(completion);
      isAnimating := false;
      trace := trace + [P.Entry(P.DidDismiss, isAnimating)];
    }

    /** `completion?()`: the caller's completion, which may call back in. */
    method RunUserCompletion(completion: Option<P.Completion>)
      requires Valid() && isAnimating
      modifies this, content, background`alpha
      decreases P.Rank(completion), 1
      ensures Valid() && isAnimating && pending == old(pending)
      ensures Settings() == old(Settings()) && Scene() == old(Scene())
      ensures Control() == P.RunUserCompletion(old(Control()), completion)
    {
      P.ReentryDropped(Control(), completion);
      if completion.Some? {
        trace := trace + [P.Entry(P.UserCompletion, isAnimating)];
        var reentry := completion.value.reentry;
        if reentry.Some? {
          if reentry.value.RequestDisplay? {
            Display(reentry.value.animated, None);
          } else {
            Dismiss(reentry.value.animated, None);
          }
        }
      }
    }

    /** The animation engine calls the completion it holds. */
    method FinishAnimation()
      requires Valid()
      modifies this, content, background`alpha
      ensures Valid() && Settings() == old(Settings()) && Scene() == old(Scene())
      ensures Control() == P.Finish(old(Control()))
    {
      if pending.Some? {
        var p := pending.value;
        pending := None;
        if p.transition == P.Displaying {
          CompleteDisplay(p.completion);
        } else {
          CompleteDismiss(p.completion);
        }
      }
    }

    /** `backgroundViewClicked()`. */
    method BackgroundViewClicked()
      requires Valid()
      modifies this, content, background`alpha
      ensures Valid() && Settings() == old(Settings())
      ensures Control() == P.Dismiss(old(Control()), true, None)
      ensures Scene() == if old(isAnimating) then old(Scene())
                         else Apply(animator.dismissAnimateBlock, old(Scene()))
    {
      Dismiss(true, None);
    }
  }
}

=== FILE: popup_kit.dfy ===
/** The newest controller, Sources/PopupView.swift: `PopupView`, its nested
    `BackgroundView` (see `Backdrop`), `BaseAnimator` with its `Layout`, and the
    slide, fade and zoom animators.

    Unlike the older animators, these place the content with a layout: a fixed
    frame, or layout constraints between the content and the popup whose
    constants the slide animators change.  The active constraints on the
    content are modelled as one optional constant per attribute.  The stored
    blocks read `layout` and the views' sizes when they run, so a block is
    modelled as an `Action` evaluated against the animator's current layout. */
module PopupKit {
  import opened Geometry
  import opened Backdrop
  import FrameAnimation
  import P = Presentation

  /** `BaseAnimator.Layout`; `None` stands for a nil width or height. */
  datatype Layout =
    | Center(verticalOffset: real, horizontalOffset: real, width: Option<real>, height: Option<real>)
    | Top(topMargin: real, horizontalOffset: real, width: Option<real>, height: Option<real>)
    | Bottom(bottomMargin: real, horizontalOffset: real, width: Option<real>, height: Option<real>)
    | Frame(rect: Rect)
  {
    /** `horizontalOffset()`. */
    function HorizontalOffset(): real
    {
      if Frame? then 0.0 else horizontalOffset
    }

    /** `verticalOffset()`: the top or bottom margin for the edge layouts. */
    function VerticalOffset(): real
    {
      match this
      case Center(v, _, _, _) => v
      case Top(m, _, _, _) => m
      case Bottom(m, _, _, _) => m
      case Frame(_) => 0.0
    }
  }

  /** `Center.zero`, the default layout. */
  const CenterZero := Center(0.0, 0.0, None, None)

  /** `Top()`, also `Top.zero`: the top margin defaults to 10. */
  const TopDefault := Top(10.0, 0.0, None, None)

  /** `Bottom()`: the bottom margin defaults to 10. */
  const BottomDefault := Bottom(10.0, 0.0, None, None)

  /** The active constraints on the content: centre and edge constraints to
      the popup, and width and height constraints on the content itself. Each
      is its constant, or `None` when there is no such constraint. */
  datatype Constraints = Constraints(centerX: Option<real>, centerY: Option<real>, top: Option<real>,
                                     bottom: Option<real>, width: Option<real>, height: Option<real>)

  const NoConstraints := Constraints(None, None, None, None, None, None)

  /** The constraints `BaseAnimator.setup` activates for a constraint layout,
      as written: the bottom layout pins the content's top edge to the popup's
      top edge, with the bottom margin as constant. */
  function BaseConstraintsAsWritten(layout: Layout): Constraints
  {
    match layout
    case Center(v, h, w, hh) => Constraints(Some(h), Some(v), None, None, w, hh)
    case Top(m, h, w, hh) => Constraints(Some(h), None, Some(m), None, w, hh)
    case Bottom(m, h, w, hh) => Constraints(Some(h), None, Some(m), None, w, hh)
    case Frame(_) => NoConstraints
  }

  /** The same, with the bottom layout pinning the content's bottom edge
      `bottomMargin` above the popup's bottom edge. */
  function BaseConstraints(layout: Layout): Constraints
  {
    match layout
    case Bottom(m, h, w, hh) => Constraints(Some(h), None, None, Some(-m), w, hh)
    case _ => BaseConstraintsAsWritten(layout)
  }

  /** As written, a bottom layout is placed exactly like the top layout with
      the same numbers: the content hangs `bottomMargin` below the popup's top. */
  lemma BottomLayoutAsWritten(margin: real, h: real, w: Option<real>, hh: Option<real>)
    ensures BaseConstraintsAsWritten(Bottom(margin, h, w, hh)) == BaseConstraintsAsWritten(Top(margin, h, w, hh))
    ensures BaseConstraintsAsWritten(Bottom(margin, h, w, hh)).top == Some(margin)
    ensures BaseConstraintsAsWritten(Bottom(margin, h, w, hh)).bottom.None?
  {
  }

  /** Corrected, every layout pins what its name says: the centre layout both
      centres, the top layout the top edge, the bottom layout the bottom edge,
      each with the layout's own numbers; no layout pins both edges. Only the
      bottom layout differs from the code as written. */
  lemma BaseConstraintsPinTheirEdge(layout: Layout)
    requires !layout.Frame?
    ensures var c := BaseConstraints(layout);
            && c.centerX == Some(layout.HorizontalOffset())
            && (c.centerY.Some? <==> layout.Center?)
            && (c.top.Some? <==> layout.Top?)
            && (c.bottom.Some? <==> layout.Bottom?)
            && (layout.Center? ==> c.centerY == Some(layout.VerticalOffset()))
            && (layout.Top? ==> c.top == Some(layout.VerticalOffset()))
            && (layout.Bottom? ==> c.bottom == Some(-layout.VerticalOffset()))
            && c.width == layout.width && c.height == layout.height
            && (!layout.Bottom? ==> c == BaseConstraintsAsWritten(layout))
  {
  }

  /** What the animators drive: the content's frame (for the frame layout), the
      popup's constraints on the content, content alpha and scale, and the
      background's alpha. */
  datatype Scene = Scene(frame: Rect, constraints: Constraints, contentAlpha: real, scale: real, backgroundAlpha: real)

  datatype Direction = Leftward | Rightward | Upward | Downward
  {
    predicate IsHorizontal()
    {
      Leftward? || Rightward?
    }
  }

  /** `BaseAnimator` itself and its subclasses. */
  datatype Kind = Base | Slide(direction: Direction) | FadeInOut | ZoomInOut

  /** The closures the animators run: a slide's `fromClosure` and its display
      block, and the fade and zoom blocks. */
  datatype Action = SlideFrom(d: Direction) | SlideTo(d: Direction) | FadeIn | FadeOut | ZoomIn | ZoomOut

  /** `constraint?.constant = value`: only an existing constraint changes. */
  function SetIfPresent(slot: Option<real>, value: real): Option<real>
  {
    if slot.Some? then Some(value) else None
  }

  /** Sets the constant of the centre-X (horizontal slides) or centre-Y
      (vertical slides) constraint, if the popup has one. */
  function Displace(c: Constraints, d: Direction, value: real): Constraints
  {
    if d.IsHorizontal() then c.(centerX := SetIfPresent(c.centerX, value))
    else c.(centerY := SetIfPresent(c.centerY, value))
  }

  /** The centre offset that puts content of size `content` just outside the popup. */
  function SlideOffset(d: Direction, popup: Size, content: Rect): real
  {
    match d
    case Leftward => -(popup.w / 2.0 + content.w / 2.0)
    case Rightward => popup.w / 2.0 + content.w / 2.0
    case Upward => popup.h / 2.0 + content.h / 2.0
    case Downward => -(popup.h / 2.0 + content.h / 2.0)
  }

  /** The frame `fromClosure` gives the content under the frame layout, as
      written: the downward slide uses the same origin as the upward one. */
  function FromFrameAsWritten(d: Direction, r: Rect, popup: Size): Rect
  {
    match d
    case Leftward => r.(x := -r.w)
    case Rightward => r.(x := popup.w)
    case Upward => r.(y := popup.h)
    case Downward => r.(y := popup.h)
  }

  /** The same, with the downward slide starting above the popup. */
  function FromFrame(d: Direction, r: Rect, popup: Size): Rect
  {
    if d == Downward then r.(y := -r.h) else FromFrameAsWritten(d, r, popup)
  }

  /** Which reading of the two defective lines a definition follows: the code
      as written, which the classes run, or the correction of the findings. */
  datatype Code = AsWritten | Corrected

  function BaseConstraintsIn(code: Code, layout: Layout): Constraints
  {
    if code == AsWritten then BaseConstraintsAsWritten(layout) else BaseConstraints(layout)
  }

  function FromFrameIn(code: Code, d: Direction, r: Rect, popup: Size): Rect
  {
    if code == AsWritten then FromFrameAsWritten(d, r, popup) else FromFrame(d, r, popup)
  }

  /** The effect of running `action` with layout `layout` in a popup of size `popup`. */
  function ActionScene(code: Code, action: Action, layout: Layout, popup: Size, s: Scene): Scene
  {
    match action
    case SlideFrom(d) =>
      if layout.Frame? then s.(frame := FromFrameIn(code, d, layout.rect, popup), backgroundAlpha := 0.0)
      else s.(constraints := Displace(s.constraints, d, SlideOffset(d, popup, s.frame)), backgroundAlpha := 0.0)
    case SlideTo(d) =>
      if layout.Frame? then s.(frame := layout.rect, backgroundAlpha := 1.0)
      else
        var offset := if d.IsHorizontal() then layout.HorizontalOffset() else layout.VerticalOffset();
        s.(constraints := Displace(s.constraints, d, offset), backgroundAlpha := 1.0)
    case FadeIn => s.(contentAlpha := 1.0, backgroundAlpha := 1.0)
    case FadeOut => s.(contentAlpha := 0.0, backgroundAlpha := 0.0)
    case ZoomIn => s.(contentAlpha := 1.0, scale := IdentityScale, backgroundAlpha := 1.0)
    case ZoomOut => s.(contentAlpha := 0.0, scale := ShrunkScale, backgroundAlpha := 0.0)
  }

  /** Runs `block?()`; a nil block does nothing. */
  function Perform(code: Code, block: Option<Action>, layout: Layout, popup: Size, s: Scene): Scene
  {
    if block.Some? then ActionScene(code, block.value, layout, popup, s) else s
  }

  /** The blocks an animator of kind `kind` stores at setup. */
  function DisplayAction(kind: Kind): Option<Action>
  {
    match kind
    case Base => None
    case Slide(d) => Some(SlideTo(d))
    case FadeInOut => Some(FadeIn)
    case ZoomInOut => Some(ZoomIn)
  }

  function DismissAction(kind: Kind): Option<Action>
  {
    match kind
    case Base => None
    case Slide(d) => Some(SlideFrom(d))
    case FadeInOut => Some(FadeOut)
    case ZoomInOut => Some(ZoomOut)
  }

  /** `BaseAnimator.setup`: a frame layout sets the frame, the others activate
      their constraints on a popup that has none yet. */
  function BaseSetupScene(code: Code, layout: Layout, s: Scene): Scene
  {
    if layout.Frame? then s.(frame := layout.rect) else s.(constraints := BaseConstraintsIn(code, layout))
  }

  /** The scene after an animator's `setup`: every subclass first runs the base
      setup and then puts the content in the state its dismiss block produces. */
  function SetupScene(code: Code, kind: Kind, layout: Layout, popup: Size, s: Scene): Scene
  {
    Perform(code, DismissAction(kind), layout, popup, BaseSetupScene(code, layout, s))
  }

  /** The two readings place the content alike except for the bottom layout
      and the downward slide with the frame layout. */
  lemma ReadingsAgreeElsewhere(kind: Kind, layout: Layout, popup: Size, s: Scene)
    requires !layout.Bottom? && !(layout.Frame? && kind == Slide(Downward))
    ensures SetupScene(AsWritten, kind, layout, popup, s) == SetupScene(Corrected, kind, layout, popup, s)
    ensures forall a: Action :: a != SlideFrom(Downward) || !layout.Frame? ==>
              ActionScene(AsWritten, a, layout, popup, s) == ActionScene(Corrected, a, layout, popup, s)
  {
  }

  /** `horizontalOffset()` and `verticalOffset()` are the constants the base
      setup gives the centre constraints, wherever it creates them, in both
      readings. */
  lemma OffsetsMatchBaseSetup(code: Code, layout: Layout)
    requires !layout.Frame?
    ensures BaseConstraintsIn(code, layout).centerX == Some(layout.HorizontalOffset())
    ensures BaseConstraintsIn(code, layout).centerY.Some? ==> BaseConstraintsIn(code, layout).centerY == Some(layout.VerticalOffset())
  {
  }

  /** Displaying after setup places the content where the layout says: the
      layout's frame, or exactly the constraints the base setup made; the
      background is opaque and a faded or zoomed content fully visible at its
      own size. This holds for the code as written and for the correction. */
  lemma DisplayLandsOnLayout(code: Code, kind: Kind, layout: Layout, popup: Size, s: Scene)
    ensures var shown := Perform(code, DisplayAction(kind), layout, popup, SetupScene(code, kind, layout, popup, s));
            && shown.constraints == (if layout.Frame? then s.constraints else BaseConstraintsIn(code, layout))
            && shown.frame == (if layout.Frame? then layout.rect else s.frame)
            && (kind != Base ==> shown.backgroundAlpha == 1.0)
            && (kind.FadeInOut? || kind.ZoomInOut? ==> shown.contentAlpha == 1.0)
            && (kind.ZoomInOut? ==> shown.scale == IdentityScale)
            && (kind.Slide? ==> shown.contentAlpha == s.contentAlpha && shown.scale == s.scale)
  {
    if kind.Slide? && !layout.Frame? {
      var d := kind.direction;
      var c := BaseConstraintsIn(code, layout);
      OffsetsMatchBaseSetup(code, layout);
      if d.IsHorizontal() {
        assert Displace(Displace(c, d, SlideOffset(d, popup, s.frame)), d, layout.HorizontalOffset()) == c;
      } else {
        assert Displace(Displace(c, d, SlideOffset(d, popup, s.frame)), d, layout.VerticalOffset()) == c;
      }
    }
  }

  /** With the layout unchanged, dismissing after displaying returns every
      animator to its setup state, in both readings. */
  lemma DismissAfterDisplay(code: Code, kind: Kind, layout: Layout, popup: Size, s: Scene)
    ensures var setup := SetupScene(code, kind, layout, popup, s);
            Perform(code, DismissAction(kind), layout, popup, Perform(code, DisplayAction(kind), layout, popup, setup)) == setup
  {
  }

  /** The popup edges content can enter across. */
  datatype Edge = LeftEdge | RightEdge | TopEdge | BottomEdge

  /** The edge each slide enters across in this version: the leftward slide
      comes from the left, the rightward from the right, the upward from
      below and the downward from above. */
  function EntryEdge(d: Direction): Edge
  {
    match d
    case Leftward => LeftEdge
    case Rightward => RightEdge
    case Upward => BottomEdge
    case Downward => TopEdge
  }

  /** Frame `r` lies entirely beyond edge `e` of a popup of size `popup`. */
  predicate FrameOutside(r: Rect, e: Edge, popup: Size)
  {
    match e
    case LeftEdge => r.x + r.w <= 0.0
    case RightEdge => r.x >= popup.w
    case TopEdge => r.y + r.h <= 0.0
    case BottomEdge => r.y >= popup.h
  }

  /** Content of size `content` whose centre is offset by `offset` from the
      popup's centre (along the edge's axis) lies entirely beyond edge `e`. */
  predicate CenterOutside(offset: real, content: Rect, e: Edge, popup: Size)
  {
    match e
    case LeftEdge => popup.w / 2.0 + offset + content.w / 2.0 <= 0.0
    case RightEdge => popup.w / 2.0 + offset - content.w / 2.0 >= popup.w
    case TopEdge => popup.h / 2.0 + offset + content.h / 2.0 <= 0.0
    case BottomEdge => popup.h / 2.0 + offset - content.h / 2.0 >= popup.h
  }

  /** A slide's start state puts the content just beyond its entry edge, with
      the frame layout and with a constraint layout alike (for the latter, when
      the popup has the centre constraint the slide moves), and hides the
      background. As written, only the downward slide with the frame layout
      misses its edge (see `DownwardFrameAsWritten`). */
  lemma SlideStartsOutside(code: Code, d: Direction, layout: Layout, popup: Size, s: Scene)
    ensures var from := ActionScene(code, SlideFrom(d), layout, popup, s);
            && from.backgroundAlpha == 0.0
            && (layout.Frame? && (code == Corrected || d != Downward) ==> FrameOutside(from.frame, EntryEdge(d), popup))
            && (layout.Frame? ==> from.frame.w == layout.rect.w && from.frame.h == layout.rect.h)
            && (!layout.Frame? && d.IsHorizontal() && s.constraints.centerX.Some? ==>
                  CenterOutside(from.constraints.centerX.value, s.frame, EntryEdge(d), popup))
            && (!layout.Frame? && !d.IsHorizontal() && s.constraints.centerY.Some? ==>
                  CenterOutside(from.constraints.centerY.value, s.frame, EntryEdge(d), popup))
  {
  }

  /** As written, the downward slide with the frame layout starts below the
      popup, beside the upward slide, not above it as with the constraint
      layouts. */
  lemma DownwardFrameAsWritten(r: Rect, popup: Size)
    requires r.h > 0.0 && popup.h >= 0.0
    ensures FromFrameAsWritten(Downward, r, popup) == FromFrameAsWritten(Upward, r, popup)
    ensures !FrameOutside(FromFrameAsWritten(Downward, r, popup), EntryEdge(Downward), popup)
    ensures FrameOutside(FromFrameAsWritten(Downward, r, popup), BottomEdge, popup)
  {
  }

  /** The top and bottom layouts have no centre-Y constraint, so the upward and
      downward slides leave the content where the layout puts it and only fade
      the background. */
  lemma VerticalSlideStaysPutOnEdgeLayouts(code: Code, d: Direction, layout: Layout, popup: Size, s: Scene)
    requires !d.IsHorizontal() && (layout.Top? || layout.Bottom?)
    ensures var setup := SetupScene(code, Slide(d), layout, popup, s);
            && setup == BaseSetupScene(code, layout, s).(backgroundAlpha := 0.0)
            && setup.constraints == BaseConstraintsIn(code, layout)
  {
  }

  /** `BaseAnimator` and its subclasses. */
  class Animator {
    const kind: Kind
    /** Read by the blocks when they run. */
    var layout: Layout
    var displayAnimationBlock: Option<Action>
    var dismissAnimationBlock: Option<Action>

    /** `init(layout:)`, whose layout defaults to `.center(.zero)`. */
    constructor (kind: Kind, layout: Layout := CenterZero)
      ensures this.kind == kind && this.layout == layout
      ensures displayAnimationBlock.None? && dismissAnimationBlock.None?
    {
      this.kind := kind;
      this.layout := layout;
      displayAnimationBlock := None;
      dismissAnimationBlock := None;
    }

    /** Runs one of the animators' closures on the views. */
    method RunAction(action: Option<Action>, popup: PopupView, content: FrameAnimation.ContentView, background: BackgroundView)
      modifies popup`constraints, content, background`alpha
      ensures SceneOf(popup, content, background) == Perform(AsWritten, action, layout, popup.size, old(SceneOf(popup, content, background)))
    {
      if action.Some? {
        match action.value {
          case SlideFrom(d) =>
            if layout.Frame? {
              content.frame := FromFrameAsWritten(d, layout.rect, popup.size);
            } else {
              popup.constraints := Displace(popup.constraints, d, SlideOffset(d, popup.size, content.frame));
            }
            background.alpha := 0.0;
          case SlideTo(d) =>
            background.alpha := 1.0;
            if layout.Frame? {
              content.frame := layout.rect;
            } else if d.IsHorizontal() {
              popup.constraints := Displace(popup.constraints, d, layout.HorizontalOffset());
            } else {
              popup.constraints := Displace(popup.constraints, d, layout.VerticalOffset());
            }
          case FadeIn =>
            content.alpha := 1.0;
            background.alpha := 1.0;
          case FadeOut =>
            content.alpha := 0.0;
            background.alpha := 0.0;
          case ZoomIn =>
            content.alpha := 1.0;
            content.scale := IdentityScale;
            background.alpha := 1.0;
          case ZoomOut =>
            content.alpha := 0.0;
            content.scale := ShrunkScale;
            background.alpha := 0.0;
        }
      }
    }

    /** `setup(popupView:contentView:backgroundView:containerView:)`. */
    method Setup(popup: PopupView, content: FrameAnimation.ContentView, background: BackgroundView)
      modifies this`displayAnimationBlock, this`dismissAnimationBlock, popup`constraints, content, background`alpha
      ensures SceneOf(popup, content, background) == SetupScene(AsWritten, kind, layout, popup.size, old(SceneOf(popup, content, background)))
      ensures kind != Base ==> displayAnimationBlock == DisplayAction(kind) && dismissAnimationBlock == DismissAction(kind)
      ensures kind == Base ==> displayAnimationBlock == old(displayAnimationBlock) && dismissAnimationBlock == old(dismissAnimationBlock)
    {
      if layout.Frame? {
        content.frame := layout.rect;
      } else {
        popup.constraints := BaseConstraintsAsWritten(layout);
      }
      match kind {
        case Base =>
        case Slide(d) =>
          RunAction(Some(SlideFrom(d)), popup, content, background);
          displayAnimationBlock := Some(SlideTo(d));
          dismissAnimationBlock := Some(SlideFrom(d));
        case FadeInOut =>
          content.alpha := 0.0;
          background.alpha := 0.0;
          displayAnimationBlock := Some(FadeIn);
          dismissAnimationBlock := Some(FadeOut);
        case ZoomInOut =>
          content.alpha := 0.0;
          background.alpha := 0.0;
          content.scale := ShrunkScale;
          displayAnimationBlock := Some(ZoomIn);
          dismissAnimationBlock := Some(ZoomOut);
      }
    }

    /** `display(contentView:backgroundView:animated:completion:)`; `finished`
        says the completion is due now rather than from the animation engine. */
    method Display(popup: PopupView, content: FrameAnimation.ContentView, background: BackgroundView, animated: bool)
      returns (finished: bool)
      modifies popup`constraints, content, background`alpha
      ensures finished == !animated
      ensures SceneOf(popup, content, background)
              == Perform(AsWritten, displayAnimationBlock, layout, popup.size, old(SceneOf(popup, content, background)))
    {
      RunAction(displayAnimationBlock, popup, content, background);
      finished := !animated;
    }

    /** `dismiss(contentView:backgroundView:animated:completion:)`. */
    method Dismiss(popup: PopupView, content: FrameAnimation.ContentView, background: BackgroundView, animated: bool)
      returns (finished: bool)
      modifies popup`constraints, content, background`alpha
      ensures finished == !animated
      ensures SceneOf(popup, content, background)
              == Perform(AsWritten, dismissAnimationBlock, layout, popup.size, old(SceneOf(popup, content, background)))
    {
      RunAction(dismissAnimationBlock, popup, content, background);
      finished := !animated;
    }
  }

  /** The views of a new popup before its animator's setup: no constraints on
      the content yet, and a background at its initial alpha. */
  function Unplaced(frame: Rect, contentAlpha: real, scale: real): Scene
  {
    Scene(frame, NoConstraints, contentAlpha, scale, 1.0)
  }

  ghost function SceneOf(popup: PopupView, content: FrameAnimation.ContentView, background: BackgroundView): Scene
    reads popup, content, background
  {
    Scene(content.frame, popup.constraints, content.alpha, content.scale, background.alpha)
  }

  /** `PopupView`. */
  class PopupView {
    /** Mirrored into `background.isUserInteractionEnabled`. */
    var isDismissible: bool
    var isInteractive: bool
    var isPenetrable: bool
    var isAnimating: bool
    /** The popup is a subview of its container. */
    var attached: bool
    /** The completion the animation engine holds. */
    var pending: Option<P.Pending>
    /** The callbacks fired so far. */
    var trace: seq<P.Entry>
    /** The popup's constraints on the content. */
    var constraints: Constraints
    /** The popup's bounds: the container's bounds at init. */
    const size: Size
    const content: FrameAnimation.ContentView
    const background: BackgroundView
    const animator: Animator

    ghost function Control(): P.Control
      reads this
    {
      P.Control(isAnimating, attached, pending, trace)
    }

    ghost function Scene(): Scene
      reads this, content, background
    {
      SceneOf(this, content, background)
    }

    /** The settings no presentation step changes. */
    ghost function Settings(): (bool, bool, bool)
      reads this
    {
      (isDismissible, isInteractive, isPenetrable)
    }

    ghost predicate Valid()
      reads this, background
    {
      && background.Valid()
      && background.isUserInteractionEnabled == isDismissible
      && (pending.Some? ==> isAnimating)
    }

    /** `init(containerView:contentView:animator:)`. */
    constructor (container: Size, content: FrameAnimation.ContentView, animator: Animator)
      modifies content, animator`displayAnimationBlock, animator`dismissAnimationBlock
      ensures Valid() && fresh(background)
      ensures size == container && this.content == content && this.animator == animator
      ensures Control() == P.Initial
      ensures !isDismissible && isInteractive && !isPenetrable
      ensures background.style == SolidColor && background.color == DefaultColor
      ensures Scene() == SetupScene(AsWritten, animator.kind, animator.layout, container,
                                    Unplaced(old(content.frame), old(content.alpha), old(content.scale)))
      ensures animator.kind != Base ==>
                animator.displayAnimationBlock == DisplayAction(animator.kind)
                && animator.dismissAnimationBlock == DismissAction(animator.kind)
      ensures animator.kind == Base ==>
                animator.displayAnimationBlock == old(animator.displayAnimationBlock)
                && animator.dismissAnimationBlock == old(animator.dismissAnimationBlock)
      ensures animator.layout == old(animator.layout)
    {
      size := container;
      this.content := content;
      this.animator := animator;
      var bg := new BackgroundView();
      background := bg;
      isDismissible := false;
      isInteractive := true;
      isPenetrable := false;
      isAnimating := false;
      attached := false;
      pending := None;
      trace := [];
      constraints := NoConstraints;
      new;
      background.isUserInteractionEnabled := isDismissible;
      animator.Setup(this, content, background);
    }

    /** Setting `isDismissible`. */
    method SetDismissible(value: bool)
      requires Valid()
      modifies this`isDismissible, background`isUserInteractionEnabled
      ensures Valid()
      ensures isDismissible == value && background.isUserInteractionEnabled == value
    {
      isDismissible := value;
      background.isUserInteractionEnabled := isDismissible;
    }

    /** `hitTest(_:with:)`, given whether the point lies in the content's bounds. */
    function HitTest(pointInContent: bool): (r: P.HitResult)
      reads this
      ensures r == P.NoTarget <==> (pointInContent && !isInteractive) || (!pointInContent && isPenetrable)
    {
      P.HitTest(pointInContent, isInteractive, isPenetrable)
    }

    /** `display(animated:completion:)`. */
    method Display(animated: bool, completion: Option<P.Completion>)
      requires Valid()
      modifies this, content, background`alpha
      decreases P.Rank(completion), 3
      ensures Valid() && Settings() == old(Settings())
      ensures Control() == P.Display(old(Control()), animated, completion)
      ensures Scene() == if old(isAnimating) then old(Scene())
                         else Perform(AsWritten, animator.displayAnimationBlock, animator.layout, size, old(Scene()))
    {
      if isAnimating {
        return;
      }
      isAnimating := true;
      attached := true;
      trace := trace + [P.Entry(P.Attach, isAnimating)];
      trace := trace + [P.Entry(P.WillDisplay, isAnimating)];
      var finished := animator.Display(this, content, background, animated);
      if finished {
        CompleteDisplay(completion);
      } else {
        pending := Some(P.Pending(P.Displaying, completion));
      }
    }

    /** `dismiss(animated:completion:)`. */
    method Dismiss(animated: bool, completion: Option<P.Completion>)
      requires Valid()
      modifies this, content, background`alpha
      decreases P.Rank(completion), 3
      ensures Valid() && Settings() == old(Settings())
      ensures Control() == P.Dismiss(old(Control()), animated, completion)
      ensures Scene() == if old(isAnimating) then old(Scene())
                         else Perform(AsWritten, animator.dismissAnimationBlock, animator.layout, size, old(Scene()))
    {
      if isAnimating {
        return;
      }
      isAnimating := true;
      trace := trace + [P.Entry(P.WillDismiss, isAnimating)];
      var finished := animator.Dismiss(this, content, background, animated);
      if finished {
        CompleteDismiss(completion);
      } else {
        pending := Some(P.Pending(P.Dismissing, completion));
      }
    }

    /** The completion closure of `display`. */
    method CompleteDisplay(completion: Option<P.Completion>)
      requires Valid() && isAnimating && pending.None?
      modifies this, content, background`alpha
      decreases P.Rank(completion), 2
      ensures Valid() && Settings() == old(Settings()) && Scene() == old(Scene())
      ensures Control() == P.CompleteDisplay(old(Control()), completion)
    {
      RunUserCompletion(completion);
      isAnimating := false;
      trace := trace + [P.Entry(P.DidDisplay, isAnimating)];
    }

    /** The completion closure of `dismiss`. */
    method CompleteDismiss(completion: Option<P.Completion>)
      requires Valid() && isAnimating && pending.None?
      modifies this, content, background`alpha
      decreases P.Rank(completion), 2
      ensures Valid() && Settings() == old(Settings()) && Scene() == old(Scene())
      ensures Control() == P.CompleteDismiss(old(Control()), completion)
    {
      attached := false;
      trace := trace + [P.Entry(P.Detach, isAnimating)];
      RunUserCompletion(completion);
      isAnimating := false;
      trace := trace + [P.Entry(P.DidDismiss, isAnimating)];
    }

    /** `completion?()`: the caller's completion, which may call back in. */
    method RunUserCompletion(completion: Option<P.Completion>)
      requires Valid() && isAnimating
      modifies this, content, background`alpha
      decreases P.Rank(completion), 1
      ensures Valid() && isAnimating && pending == old(pending)
      ensures Settings() == old(Settings()) && Scene() == old(Scene())
      ensures Control() == P.RunUserCompletion(old(Control()), completion)
    {
      P.ReentryDropped(Control(), completion);
      if completion.Some? {
        trace := trace + [P.Entry(P.UserCompletion, isAnimating)];
        var reentry := completion.value.reentry;
        if reentry.Some? {
          if reentry.value.RequestDisplay? {
            Display(reentry.value.animated, None);
          } else {
            Dismiss(reentry.value.animated, None);
          }
        }
      }
    }

    /** The animation engine calls the completion it holds. */
    method FinishAnimation()
      requires Valid()
      modifies this, content, background`alpha
      ensures Valid() && Settings() == old(Settings()) && Scene() == old(Scene())
      ensures Control() == P.Finish(old(Control()))
    {
      if pending.Some? {
        var p := pending.value;
        pending := None;
        if p.transition == P.Displaying {
          CompleteDisplay(p.completion);
        } else {
          CompleteDismiss(p.completion);
        }
      }
    }

    /** `backgroundViewClicked()`. */
    method BackgroundViewClicked()
      requires Valid()
      modifies this, content, background`alpha
      ensures Valid() && Settings() == old(Settings())
      ensures Control() == P.Dismiss(old(Control()), true, None)
      ensures Scene() == if old(isAnimating) then old(Scene())
                         else Perform(AsWritten, animator.dismissAnimationBlock, animator.layout, size, old(Scene()))
    {
      Dismiss(true, None);
    }
  }
}

=== FILE: presentation.dfy ===
/** The popup controller's presentation state machine, as values.

    All three versions of the controller (`PopupView`, and `JXPopupView` in both
    older files) run the same `display`/`dismiss` code: one `isAnimating` flag
    guards both, `display` attaches the popup to its container and fires the
    will-callback before the animator runs, and the completion handed to the
    animator runs the caller's completion, clears the flag and fires the
    did-callback (after detaching, for `dismiss`).  Each controller class is
    proved to change its state exactly as the functions here say; the lemmas
    here state what that means. */
module Presentation {
  import opened Geometry

  /** What the controller does that an observer can see, in firing order. */
  datatype Event =
    | Attach          // containerView.addSubview(self)
    | WillDisplay     // willDispalyCallback
    | DidDisplay      // didDispalyCallback
    | WillDismiss     // willDismissCallback
    | DidDismiss      // didDismissCallback
    | UserCompletion  // the completion passed to display/dismiss
    | Detach          // removeFromSuperview()

  /** One fired event together with the value `isAnimating` had at that instant. */
  datatype Entry = Entry(event: Event, busy: bool)

  /** A call the caller's completion closure makes back into the controller. */
  datatype Request = RequestDisplay(animated: bool) | RequestDismiss(animated: bool)

  /** A non-nil completion closure: it fires `UserCompletion` and may then issue
      one request (itself without a completion). */
  datatype Completion = Completion(reentry: Option<Request>)

  datatype Transition = Displaying | Dismissing

  /** The completion the animation engine holds until the animation ends. */
  datatype Pending = Pending(transition: Transition, completion: Option<Completion>)

  /** The controller's presentation state: the guard, whether the popup is a
      subview of its container, the completion in flight and the event trace. */
  datatype Control = Control(isAnimating: bool, attached: bool, pending: Option<Pending>, trace: seq<Entry>)

  /** A freshly initialised controller. */
  const Initial := Control(false, false, None, [])

  function Rank(c: Option<Completion>): nat
  {
    if c.Some? then 1 else 0
  }

  /** Fires `e`, recording the current value of the guard. */
  function Log(s: Control, e: Event): Control
  {
    s.(trace := s.trace + [Entry(e, s.isAnimating)])
  }

  /** `display(animated:completion:)`. */
  function Display(s: Control, animated: bool, completion: Option<Completion>): Control
    decreases Rank(completion), 3
  {
    if s.isAnimating then s
    else
      var s1 := Log(Log(s.(isAnimating := true, attached := true), Attach), WillDisplay);
      if animated then s1.(pending := Some(Pending(Displaying, completion)))
      else CompleteDisplay(s1, completion)
  }

  /** `dismiss(animated:completion:)`. */
  function Dismiss(s: Control, animated: bool, completion: Option<Completion>): Control
    decreases Rank(completion), 3
  {
    if s.isAnimating then s
    else
      var s1 := Log(s.(isAnimating := true), WillDismiss);
      if animated then s1.(pending := Some(Pending(Dismissing, completion)))
      else CompleteDismiss(s1, completion)
  }

  /** The closure `display` hands to the animator. */
  function CompleteDisplay(s: Control, completion: Option<Completion>): Control
    decreases Rank(completion), 2
  {
    var s1 := RunUserCompletion(s, completion);
    Log(s1.(isAnimating := false), DidDisplay)
  }

  /** The closure `dismiss` hands to the animator. */
  function CompleteDismiss(s: Control, completion: Option<Completion>): Control
    decreases Rank(completion), 2
  {
    var s1 := RunUserCompletion(Log(s.(attached := false), Detach), completion);
    Log(s1.(isAnimating := false), DidDismiss)
  }

  /** `completion?()`. */
  function RunUserCompletion(s: Control, completion: Option<Completion>): Control
    decreases Rank(completion), 1
  {
    match completion
    case None => s
    case Some(c) =>
      var s1 := Log(s, UserCompletion);
      match c.reentry
      case None => s1
      case Some(RequestDisplay(a)) => Display(s1, a, None)
      case Some(RequestDismiss(a)) => Dismiss(s1, a, None)
  }

  /** The animation engine calls the completion it holds, once. */
  function Finish(s: Control): Control
  {
    match s.pending
    case None => s
    case Some(p) =>
      var s1 := s.(pending := None);
      if p.transition == Displaying then CompleteDisplay(s1, p.completion)
      else CompleteDismiss(s1, p.completion)
  }

  /** What a caller (or the animation engine) can do to a controller. */
  datatype Op =
    | DisplayOp(animated: bool, completion: Option<Completion>)
    | DismissOp(animated: bool, completion: Option<Completion>)
    | BackgroundTap
    | FinishOp

  function Step(s: Control, op: Op): Control
  {
    match op
    case DisplayOp(a, c) => Display(s, a, c)
    case DismissOp(a, c) => Dismiss(s, a, c)
    case BackgroundTap => Dismiss(s, true, None)  // backgroundViewClicked
    case FinishOp => Finish(s)
  }

  function Run(s: Control, ops: seq<Op>): Control
    decreases |ops|
  {
    if ops == [] then s else Run(Step(s, ops[0]), ops[1..])
  }

  // ---------------------------------------------------------------------
  // The callback protocol: an automaton over the trace.

  /** Where an observer of the trace is in the show/hide cycle. */
  datatype Phase =
    | Idle
    | Attaching         // attached, will-display not yet fired
    | Showing           // will-display fired
    | ShowingCompleted  // caller's completion of a display ran
    | Hiding            // will-dismiss fired
    | Detached          // removed from the container during a dismiss
    | HidingCompleted   // caller's completion of a dismiss ran
    | Broken            // the trace left the protocol

  /** The value the guard must have when `e` fires: set for every event but the did-callbacks. */
  predicate ExpectedBusy(e: Event)
  {
    e != DidDisplay && e != DidDismiss
  }

  function Advance(p: Phase, e: Event): Phase
  {
    match (p, e)
    case (Idle, Attach) => Attaching
    case (Attaching, WillDisplay) => Showing
    case (Showing, UserCompletion) => ShowingCompleted
    case (Showing, DidDisplay) => Idle
    case (ShowingCompleted, DidDisplay) => Idle
    case (Idle, WillDismiss) => Hiding
    case (Hiding, Detach) => Detached
    case (Detached, UserCompletion) => HidingCompleted
    case (Detached, DidDismiss) => Idle
    case (HidingCompleted, DidDismiss) => Idle
    case _ => Broken
  }

  function Next(p: Phase, e: Entry): Phase
  {
    if e.busy != ExpectedBusy(e.event) then Broken else Advance(p, e.event)
  }

  /** Runs the trace `t` through the protocol automaton from phase `p`. */
  function Scan(p: Phase, t: seq<Entry>): Phase
    decreases |t|
  {
    if t == [] then p else Scan(Next(p, t[0]), t[1..])
  }

  /** The phase a controller state should have reached. */
  function PhaseOf(s: Control): Phase
  {
    match s.pending
    case None => Idle
    case Some(p) => if p.transition == Displaying then Showing else Hiding
  }

  /** A state between operations: a transition is in flight exactly when the
      guard is set, the trace has followed the protocol up to that transition,
      and a popup that is being displayed is attached. */
  ghost predicate Consistent(s: Control)
  {
    && (s.isAnimating <==> s.pending.Some?)
    && Scan(Idle, s.trace) == PhaseOf(s)
    && (PhaseOf(s) == Showing ==> s.attached)
  }

  lemma {:induction false} ScanAppend(p: Phase, t: seq<Entry>, e: Entry)
    ensures Scan(p, t + [e]) == Next(Scan(p, t), e)
    decreases |t|
  {
    if t == [] {
      assert [e][1..] == [];
    } else {
      assert (t + [e])[0] == t[0];
      assert (t + [e])[1..] == t[1..] + [e];
      ScanAppend(Next(p, t[0]), t[1..], e);
    }
  }

  /** Inside a completion the guard is still set, so a request the caller's
      completion issues is dropped: the only effect is the `UserCompletion` entry. */
  lemma ReentryDropped(s: Control, completion: Option<Completion>)
    requires s.isAnimating
    ensures RunUserCompletion(s, completion)
            == if completion.Some? then Log(s, UserCompletion) else s
  {
    if completion.Some? && completion.value.reentry.Some? {
      var s1 := Log(s, UserCompletion);
      match completion.value.reentry.value {
        case RequestDisplay(a) => assert Display(s1, a, None) == s1;
        case RequestDismiss(a) => assert Dismiss(s1, a, None) == s1;
      }
    }
  }

  /** The entries a completion adds, if any. */
  function UserPart(completion: Option<Completion>): seq<Entry>
  {
    if completion.Some? then [Entry(UserCompletion, true)] else []
  }

  /** While a transition is in flight, `display` and `dismiss` change nothing. */
  lemma DroppedWhileAnimating(s: Control, animated: bool, completion: Option<Completion>)
    requires s.isAnimating
    ensures Display(s, animated, completion) == s
    ensures Dismiss(s, animated, completion) == s
  {
  }

  /** The display completion: caller's completion, then the guard is cleared, then did-display. */
  lemma CompleteDisplayOrder(s: Control, completion: Option<Completion>)
    requires s.isAnimating
    ensures var r := CompleteDisplay(s, completion);
            && !r.isAnimating && r.attached == s.attached && r.pending == s.pending
            && r.trace == s.trace + UserPart(completion) + [Entry(DidDisplay, false)]
  {
    ReentryDropped(s, completion);
  }

  /** The dismiss completion: detach, caller's completion, the guard is cleared, did-dismiss. */
  lemma CompleteDismissOrder(s: Control, completion: Option<Completion>)
    requires s.isAnimating
    ensures var r := CompleteDismiss(s, completion);
            && !r.isAnimating && !r.attached && r.pending == s.pending
            && r.trace == s.trace + [Entry(Detach, true)] + UserPart(completion) + [Entry(DidDismiss, false)]
  {
    ReentryDropped(Log(s.(attached := false), Detach), completion);
  }

  /** `display` on an idle controller: set the guard, attach, fire will-display;
      without animation the completion has already run when `display` returns. */
  lemma DisplayOrder(s: Control, animated: bool, completion: Option<Completion>)
    requires !s.isAnimating
    ensures var r := Display(s, animated, completion);
            var begun := s.trace + [Entry(Attach, true), Entry(WillDisplay, true)];
            && r.attached
            && (animated ==> r.isAnimating && r.pending == Some(Pending(Displaying, completion)) && r.trace == begun)
            && (!animated ==> !r.isAnimating && r.pending == s.pending
                              && r.trace == begun + UserPart(completion) + [Entry(DidDisplay, false)])
  {
    var s1 := Log(Log(s.(isAnimating := true, attached := true), Attach), WillDisplay);
    assert s1.trace == s.trace + [Entry(Attach, true), Entry(WillDisplay, true)];
    if !animated {
      CompleteDisplayOrder(s1, completion);
    }
  }

  /** `dismiss` on an idle controller: set the guard, fire will-dismiss; without
      animation the popup is detached and the completion has run on return. */
  lemma DismissOrder(s: Control, animated: bool, completion: Option<Completion>)
    requires !s.isAnimating
    ensures var r := Dismiss(s, animated, completion);
            var begun := s.trace + [Entry(WillDismiss, true)];
            && (animated ==> r.isAnimating && r.attached == s.attached
                             && r.pending == Some(Pending(Dismissing, completion)) && r.trace == begun)
            && (!animated ==> !r.isAnimating && !r.attached && r.pending == s.pending
                              && r.trace == begun + [Entry(Detach, true)] + UserPart(completion) + [Entry(DidDismiss, false)])
  {
    var s1 := Log(s.(isAnimating := true), WillDismiss);
    if !animated {
      CompleteDismissOrder(s1, completion);
    }
  }

  /** Displaying and then dismissing without animation leaves the popup detached,
      idle, with nothing pending, and with both cycles' events in call order. */
  lemma ShowThenHideSynchronously(s: Control, c1: Option<Completion>, c2: Option<Completion>)
    requires Consistent(s) && !s.isAnimating
    ensures var r := Dismiss(Display(s, false, c1), false, c2);
            && !r.isAnimating && !r.attached && r.pending.None?
            && r.trace == s.trace + [Entry(Attach, true), Entry(WillDisplay, true)] + UserPart(c1)
                          + [Entry(DidDisplay, false), Entry(WillDismiss, true), Entry(Detach, true)]
                          + UserPart(c2) + [Entry(DidDismiss, false)]
  {
    DisplayOrder(s, false, c1);
    DismissOrder(Display(s, false, c1), false, c2);
  }

  lemma {:induction false} ScanUser(p: Phase, t: seq<Entry>, completion: Option<Completion>)
    requires Scan(Idle, t) == p
    ensures Scan(Idle, t + UserPart(completion)) == if completion.Some? then Next(p, Entry(UserCompletion, true)) else p
  {
    if completion.Some? {
      ScanAppend(Idle, t, Entry(UserCompletion, true));
    } else {
      assert t + UserPart(completion) == t;
    }
  }

  /** Every operation keeps a consistent state consistent. */
  lemma {:induction false} StepKeepsProtocol(s: Control, op: Op)
    requires Consistent(s)
    ensures Consistent(Step(s, op))
  {
    match op {
      case DisplayOp(a, c) => DisplayKeepsProtocol(s, a, c);
      case DismissOp(a, c) => DismissKeepsProtocol(s, a, c);
      case BackgroundTap => DismissKeepsProtocol(s, true, None);
      case FinishOp => FinishKeepsProtocol(s);
    }
  }

  lemma {:induction false} DisplayKeepsProtocol(s: Control, animated: bool, completion: Option<Completion>)
    requires Consistent(s)
    ensures Consistent(Display(s, animated, completion))
  {
    if !s.isAnimating {
      DisplayOrder(s, animated, completion);
      var t1 := s.trace + [Entry(Attach, true)];
      var t2 := t1 + [Entry(WillDisplay, true)];
      assert s.trace + [Entry(Attach, true), Entry(WillDisplay, true)] == t2;
      ScanAppend(Idle, s.trace, Entry(Attach, true));
      ScanAppend(Idle, t1, Entry(WillDisplay, true));
      assert Scan(Idle, t2) == Showing;
      if !animated {
        ScanUser(Showing, t2, completion);
        ScanAppend(Idle, t2 + UserPart(completion), Entry(DidDisplay, false));
      }
    }
  }

  lemma {:induction false} DismissKeepsProtocol(s: Control, animated: bool, completion: Option<Completion>)
    requires Consistent(s)
    ensures Consistent(Dismiss(s, animated, completion))
  {
    if !s.isAnimating {
      DismissOrder(s, animated, completion);
      var t1 := s.trace + [Entry(WillDismiss, true)];
      ScanAppend(Idle, s.trace, Entry(WillDismiss, true));
      if !animated {
        var t2 := t1 + [Entry(Detach, true)];
        ScanAppend(Idle, t1, Entry(Detach, true));
        ScanUser(Detached, t2, completion);
        ScanAppend(Idle, t2 + UserPart(completion), Entry(DidDismiss, false));
      }
    }
  }

  lemma {:induction false} FinishKeepsProtocol(s: Control)
    requires Consistent(s)
    ensures Consistent(Finish(s))
  {
    if s.pending.Some? {
      var p := s.pending.value;
      var s1 := s.(pending := None);
      if p.transition == Displaying {
        CompleteDisplayOrder(s1, p.completion);
        ScanUser(Showing, s.trace, p.completion);
        ScanAppend(Idle, s.trace + UserPart(p.completion), Entry(DidDisplay, false));
      } else {
        CompleteDismissOrder(s1, p.completion);
        var t1 := s.trace + [Entry(Detach, true)];
        ScanAppend(Idle, s.trace, Entry(Detach, true));
        ScanUser(Detached, t1, p.completion);
        ScanAppend(Idle, t1 + UserPart(p.completion), Entry(DidDismiss, false));
      }
    }
  }

  /** No sequence of calls, however interleaved with animation ends, ever makes
      transitions overlap: the trace of a controller is always a run of complete
      will/did cycles, followed by at most one open cycle that matches the
      completion in flight. */
  lemma {:induction false} RunKeepsProtocol(s: Control, ops: seq<Op>)
    requires Consistent(s)
    ensures Consistent(Run(s, ops))
    ensures Scan(Idle, Run(s, ops).trace) != Broken
    decreases |ops|
  {
    if ops != [] {
      StepKeepsProtocol(s, ops[0]);
      RunKeepsProtocol(Step(s, ops[0]), ops[1..]);
    }
  }

  /** A new controller is idle, detached and has fired nothing. */
  lemma InitialConsistent()
    ensures Consistent(Initial) && PhaseOf(Initial) == Idle
  {
  }

  /** Every controller, from its creation on, follows the protocol. */
  lemma ProtocolFromInitial(ops: seq<Op>)
    ensures Consistent(Run(Initial, ops))
    ensures Scan(Idle, Run(Initial, ops).trace) != Broken
  {
    InitialConsistent();
    RunKeepsProtocol(Initial, ops);
  }

  // ---------------------------------------------------------------------
  // Hit-testing.

  /** `DefaultTarget` stands for `super.hitTest(point, with: event)`; `NoTarget` for `nil`. */
  datatype HitResult = DefaultTarget | NoTarget

  /** The popup's hit-test decision.  A point inside the content reaches the
      content only when the popup is interactive; a point outside it reaches
      the background (and so the dismiss tap) only when the popup is not
      penetrable. */
  function HitTest(pointInContent: bool, isInteractive: bool, isPenetrable: bool): (r: HitResult)
    ensures r == NoTarget <==> (pointInContent && !isInteractive) || (!pointInContent && isPenetrable)
    ensures pointInContent ==> (r == DefaultTarget <==> isInteractive)
    ensures !pointInContent ==> (r == DefaultTarget <==> !isPenetrable)
  {
    if pointInContent then
      if isInteractive then DefaultTarget else NoTarget
    else
      if !isPenetrable then DefaultTarget else NoTarget
  }
}
